=== FILE: README.md ===
# Taylor resume extension — a functional Dafny model of its core

Taylor is a browser extension that keeps one resume and tailors it to a job
description. This project models the parts of it that are plain data and
string logic. Everything else is React views, browser storage and messaging.

- **Resume edits.** Covers the confirmation form (append an experience, edit
  a field or a bullet by id, append a bullet), the comma-separated skills box,
  and the naive parser that fills the form from pasted text.
- **Tailoring view.** Covers prepending a suggested bullet, merging suggested
  skills without duplicates, "Copy All Suggestions", the relevance stars, and
  the job-description length guards.
- **Cover-letter view.** Covers word counting, the 250–350 target band, which
  count is shown, and the input guards.
- **Background service worker.** Covers install defaults, the message router,
  the local-or-stub routing rule, provider dispatch, and the two prompt
  templates.
- **Settings view.** Covers defaults, load and save, the two setting edits,
  and the API-key map.
- **Job-description view.** Covers `extractJobInfo`, an ordered first-match-wins
  search, and the save and cancel of an edit.
- **`extractSectionsFromText`.** Finds the leftmost case-insensitive header
  and takes the text up to the next stop word.

All records are immutable datatypes (`Records`) and every operation is a pure
function. The model has one module per source file, plus three shared
modules:
- `Common`: `Option`, `Result`, and the leftmost and rightmost searches `FindFirst` and `FindLast`.
- `Text`: the ECMAScript whitespace set, `trim`, one-character-class `split`, `join`, ASCII case-insensitive matching and the "next stop word" search.
- `Records`: the data records.

The JavaScript regular expressions in the core are modelled exactly as string
searches. That includes:
- the `i` flag, which without the `u` flag folds ASCII letters only;
- the lazy `(.+?)` and `[\s\S]*?` groups ended by a lookahead that includes `$`;
- the backtracking of `\s*([^\n]+)` in the job-description label patterns.

Behaviours of the code worth noting:
- "Copy All Suggestions" with an empty suggestion list still copies the empty string. Only a missing list does nothing (`ResumeEditor.CopiedText`).
- The editor fetches suggestions only for a job description longer than 50 characters, and shows its placeholder only below 50. A description of exactly 50 characters therefore shows the editor without fetching (`ResumeEditor.GuardsAgree`).
- Cancelling a job-description edit closes the box but keeps the typed draft (`JobDescription.CancelKeepsDraft`).
- The skills split class of `basicResumeParser` is modelled literally as written in the file: comma, newline and the three characters `â`, `€`, `¢`. These are the bullet sign saved with the wrong encoding.

## Model

| member | source | states |
|---|---|---|
| ResumeUploader.AddExperience | taylor-resume-extension/src/components/ResumeUploader.jsx:101-109 | exactly one entry is appended, with the given id, every text field empty and bullets `[""]`; earlier entries and the other resume fields are unchanged |
| ResumeUploader.SetField | taylor-resume-extension/src/components/ResumeUploader.jsx:114 | `{...exp, [field]: value}` sets that field and leaves every other field, the id and the bullets alone |
| ResumeUploader.ChangeExperience | taylor-resume-extension/src/components/ResumeUploader.jsx:111-118 | every entry whose id matches (all of them when ids repeat) gets the field; list length, other fields and other entries are unchanged |
| ResumeUploader.ChangeBullet | taylor-resume-extension/src/components/ResumeUploader.jsx:120-132 | with the index in range, exactly `bullets[index]` of each matching entry is replaced; bullet count, other bullets, other fields and other entries are unchanged |
| ResumeUploader.AddBullet | taylor-resume-extension/src/components/ResumeUploader.jsx:134-144 | a matching entry gains one bullet, the new last one is `""`, earlier bullets and all other entries are unchanged |
| ResumeUploader.ParseSkillsText | taylor-resume-extension/src/components/ResumeUploader.jsx:305 | reading the box always gives at least one skill, each trimmed and comma-free |
| ResumeUploader.SkillsRoundTrip | taylor-resume-extension/src/components/ResumeUploader.jsx:304-305 | showing a non-empty list of trimmed, comma-free skills with `join(', ')` and reading it back with `split(',')` plus trim gives the same list |
| ResumeUploader.EmptySkillsReadBackBlank | taylor-resume-extension/src/components/ResumeUploader.jsx:304-305 | the empty list comes back as `[""]`, not `[]` |
| ResumeUploader.ParsedSkillsFitBox | taylor-resume-extension/src/components/ResumeUploader.jsx:305 | whatever was typed, each stored skill is one the box carries unchanged |
| ResumeUploader.SkillsBoxStable | taylor-resume-extension/src/components/ResumeUploader.jsx:304-305 | one more show-and-read cycle of the box changes nothing |
| ResumeUploader.SlugEnd | taylor-resume-extension/src/components/ResumeUploader.jsx:448 | the greedy `[a-zA-Z0-9_-]+` stops at the first character outside the class |
| ResumeUploader.LinkedInPos | taylor-resume-extension/src/components/ResumeUploader.jsx:448 | the match starts at the leftmost place where `linkedin.com/in/` is followed by a slug character, and exists iff there is one |
| ResumeUploader.LinkedInMatch | taylor-resume-extension/src/components/ResumeUploader.jsx:448-451 | a URL is found iff the text holds one; it begins with `linkedin.com/in/` followed by at least one slug character and nothing else |
| ResumeUploader.LinkedInMatchInText | taylor-resume-extension/src/components/ResumeUploader.jsx:448-451 | the URL is the text at the leftmost match, cut only where a non-slug character or the end follows |
| ResumeUploader.SkillsHeaderPos | taylor-resume-extension/src/components/ResumeUploader.jsx:454 | the skills match starts at the leftmost `skills` in any ASCII case |
| ResumeUploader.SkillsBlock | taylor-resume-extension/src/components/ResumeUploader.jsx:454-455 | the skills regex matches iff `skills` occurs anywhere (the lazy group can always grow to the end) |
| ResumeUploader.SkillsBlockShape | taylor-resume-extension/src/components/ResumeUploader.jsx:454 | the captured block is the text after the header, its whitespace and an optional colon, up to the first `experience`/`education`/`projects` or the end |
| ResumeUploader.SkillsFromBlock | taylor-resume-extension/src/components/ResumeUploader.jsx:456-457 | every skill split from the block is non-empty, trimmed and free of all five separator characters |
| ResumeUploader.SkillsFromBlockJoin | taylor-resume-extension/src/components/ResumeUploader.jsx:456-457 | a block listing non-empty, trimmed, separator-free skills joined by `", "` gives back exactly those skills, in order |
| ResumeUploader.ParsedSkills | taylor-resume-extension/src/components/ResumeUploader.jsx:455-458 | no skills when the text has no `skills` header; otherwise every skill is non-empty, trimmed and separator-free |
| ResumeUploader.ParsedSkillsFromList | taylor-resume-extension/src/components/ResumeUploader.jsx:454-458 | pasted text whose skills block lists skills joined by `", "` fills the form with exactly those skills, in order |
| ResumeUploader.BasicResumeParser | taylor-resume-extension/src/components/ResumeUploader.jsx:421-474 | exactly one placeholder experience (id `'1'`, two bullets); the links are the one URL `LinkedInMatch` finds, or none; the skills are those of the skills block; name, location, summary, projects, education empty |
| ResumeEditor.FindExperience | taylor-resume-extension/src/components/ResumeEditor.jsx:53 | `findIndex`: the first entry with the id, or none when no entry has it |
| ResumeEditor.ApplySuggestion | taylor-resume-extension/src/components/ResumeEditor.jsx:49-67 | None (nothing passed on or stored) iff no entry has the id; otherwise the new bullet is prepended to the first matching entry, its old bullets follow in order, and every other entry and field is unchanged |
| ResumeEditor.Dedup | taylor-resume-extension/src/components/ResumeEditor.jsx:76-79 | the Set's contents are exactly the input's elements |
| ResumeEditor.DedupNoDuplicates | taylor-resume-extension/src/components/ResumeEditor.jsx:76-79 | a Set read back holds no element twice |
| ResumeEditor.DedupFirstOccurrenceOrder | taylor-resume-extension/src/components/ResumeEditor.jsx:76-79 | a Set yields its elements in the order of their first insertion |
| ResumeEditor.DedupDistinct | taylor-resume-extension/src/components/ResumeEditor.jsx:76 | a list without repeats passes through a Set unchanged |
| ResumeEditor.Unseen | taylor-resume-extension/src/components/ResumeEditor.jsx:77 | the added skills not already present are exactly those outside the old list |
| ResumeEditor.DedupAppend | taylor-resume-extension/src/components/ResumeEditor.jsx:76-79 | deduplicating old + new gives the old list's distinct skills first, then the genuinely new ones in order of first appearance |
| ResumeEditor.SetInsertionOrder | taylor-resume-extension/src/components/ResumeEditor.jsx:76-79 | the insertion loop over a seen-set computes the first-occurrence deduplication of old + new |
| ResumeEditor.AddSkills | taylor-resume-extension/src/components/ResumeEditor.jsx:70-86 | a missing or empty list stores nothing; otherwise only the skills change, with no duplicates and exactly the union of old and new |
| ResumeEditor.AddSkillsOrder | taylor-resume-extension/src/components/ResumeEditor.jsx:76-79 | existing skills come first in their order (exactly the old list when it had no repeats), then new skills in order of first appearance |
| ResumeEditor.AllBulletsAppend | taylor-resume-extension/src/components/ResumeEditor.jsx:92-93 | `flatMap` over two groups of suggestions is the flattening of each, in order |
| ResumeEditor.AllBulletsPosition | taylor-resume-extension/src/components/ResumeEditor.jsx:92-93 | bullet k of suggestion i sits right after all bullets of earlier suggestions: experience order, then bullet order |
| ResumeEditor.CopiedText | taylor-resume-extension/src/components/ResumeEditor.jsx:89-94 | nothing is copied iff there is no reply or it has no suggestion list; a list without bullets copies `""` |
| ResumeEditor.CopiedTextSingle | taylor-resume-extension/src/components/ResumeEditor.jsx:92-94 | a single suggested bullet is copied verbatim |
| ResumeEditor.CopiedTextSplits | taylor-resume-extension/src/components/ResumeEditor.jsx:92-94 | the copied text of two groups is the first group's text, `"\n\n"`, then the second's |
| ResumeEditor.CopiedTextDependsOnBullets | taylor-resume-extension/src/components/ResumeEditor.jsx:92-94 | two suggestion lists with the same flattened bullets copy the same text, however the bullets are grouped into suggestions |
| ResumeEditor.CopiedTextSplitsAt | taylor-resume-extension/src/components/ResumeEditor.jsx:92-94 | cut the flattened bullets at any k: the copied text is the first k bullets' text, `"\n\n"`, then the rest's; with `CopiedTextSingle` this fixes the copied text of every list, bullet by bullet |
| ResumeEditor.StarsClamp | taylor-resume-extension/src/components/ResumeEditor.jsx:217-221 | the number of filled stars is the relevance rounded up and clamped to 0..3 (a JSON relevance may be fractional: 1.5 fills two), and filled stars come first |
| ResumeEditor.GuardsAgree | taylor-resume-extension/src/components/ResumeEditor.jsx:10-14 | whenever suggestions are fetched automatically the placeholder is not shown; at exactly 50 characters neither happens |
| CoverLetter.WordsAreRuns | taylor-resume-extension/src/components/CoverLetterGenerator.jsx:45 | every piece of `split(/\s+/).filter(Boolean)` is non-empty and free of whitespace |
| CoverLetter.CountWordsIsRunCount | taylor-resume-extension/src/components/CoverLetterGenerator.jsx:44-46 | `countWords` equals the number of maximal runs of non-whitespace, counted independently by run starts |
| CoverLetter.CountWordsZero | taylor-resume-extension/src/components/CoverLetterGenerator.jsx:44-46 | the count is 0 iff the text is empty or all whitespace |
| CoverLetter.WordsAroundSpace | taylor-resume-extension/src/components/CoverLetterGenerator.jsx:45 | the words of `a + " " + b` are the words of a followed by the words of b |
| CoverLetter.CountWordsAdd | taylor-resume-extension/src/components/CoverLetterGenerator.jsx:44-46 | `countWords(a + " " + b) == countWords(a) + countWords(b)` |
| CoverLetter.LengthBand | taylor-resume-extension/src/components/CoverLetterGenerator.jsx:118 | the band is under target iff count < 250, over target iff count > 350, good iff 250 ≤ count ≤ 350 |
| CoverLetter.LengthLabel | taylor-resume-extension/src/components/CoverLetterGenerator.jsx:118 | "Under target" is shown iff count < 250, "Over target" iff count > 350, "Good length" iff 250 ≤ count ≤ 350 |
| CoverLetter.DisplayedWordCount | taylor-resume-extension/src/components/CoverLetterGenerator.jsx:32 | the reply's count is shown when present and non-zero, else the letter is counted; a shown 0 means an all-whitespace letter |
| CoverLetter.StartGeneration | taylor-resume-extension/src/components/CoverLetterGenerator.jsx:11-14 | no request and the fixed error iff the resume or job description is missing; otherwise the request carries both unchanged |
| CoverLetter.ShownGeneratorNeedsOnlyResume | taylor-resume-extension/src/components/CoverLetterGenerator.jsx:11-14 | once the view shows the generator (a job description of 50 or more characters, line 74), the missing-input error appears iff the resume is missing, and otherwise the request carries both inputs |
| Background.InstallStore | taylor-resume-extension/src/background/background.js:5-31 | install writes a profile and a resume whose every field is `''` or `[]`, an empty cache, and settings local / openRouter / no keys |
| Background.CallModelProvider | taylor-resume-extension/src/background/background.js:117-144 | succeeds iff the provider is one of the five names, with a placeholder message; any other name fails with "Unsupported model provider: " + name |
| Background.PlaceholderMessage | taylor-resume-extension/src/background/background.js:117-140 | a known provider replies with "This is a placeholder for ", its display name, then " API response" |
| Background.OpenRouterMessage | taylor-resume-extension/src/background/background.js:121-123 | `openRouter` replies exactly "This is a placeholder for OpenRouter API response", whatever the key and prompt |
| Background.TogetherMessage | taylor-resume-extension/src/background/background.js:125-127 | `together` replies exactly "This is a placeholder for Together API response", whatever the key and prompt |
| Background.FireworksMessage | taylor-resume-extension/src/background/background.js:129-131 | `fireworks` replies exactly "This is a placeholder for Fireworks API response", whatever the key and prompt |
| Background.OllamaMessage | taylor-resume-extension/src/background/background.js:133-135 | `ollama` replies exactly "This is a placeholder for Ollama API response", whatever the key and prompt |
| Background.OpenAIMessage | taylor-resume-extension/src/background/background.js:137-139 | `openai` replies exactly "This is a placeholder for OpenAI API response", whatever the key and prompt |
| Background.Route | taylor-resume-extension/src/background/background.js:66-91 | a provider is consulted iff settings exist, mode is local and the selected key is present and non-empty, and then it is the selected provider, called with its stored key and the prompt; otherwise the stub; failure iff settings are missing or the provider is unknown |
| Background.ProcessResumeTailoring | taylor-resume-extension/src/background/background.js:61-92 | the tailoring prompt goes to the selected provider with its key under exactly that rule, and the stub tailoring is returned otherwise |
| Background.GenerateCoverLetter | taylor-resume-extension/src/background/background.js:95-114 | the cover-letter prompt goes to the selected provider with its key under the same rule, and the 320-word stub is returned otherwise |
| Background.StubPaths | taylor-resume-extension/src/background/background.js:22-26 | the install defaults, and anonymous mode whatever keys are stored, take the stub path for both requests |
| Background.StubRelevanceInRange | taylor-resume-extension/src/background/background.js:80 | the stub suggestion's relevance lies in the 0–3 range the prompt asks for |
| Background.FencedPromptLayout | taylor-resume-extension/src/background/background.js:147-168 | the serialised resume follows the introduction, and the job description sits verbatim between a `"""` line before and after it |
| Background.FencedPromptInjective | taylor-resume-extension/src/background/background.js:147-168 | for resumes of equal serialised length, equal prompts mean equal resumes and job descriptions |
| Background.TailoringPromptLayout | taylor-resume-extension/src/background/background.js:147-168 | in the tailoring prompt the resume follows the introduction and the job description sits 30 characters later between `"""` fences |
| Background.CoverLetterPromptLayout | taylor-resume-extension/src/background/background.js:172-190 | in the cover-letter prompt the resume follows the introduction and the job description sits 23 characters later between `"""` fences |
| Background.ToResponse | taylor-resume-extension/src/background/background.js:47-48 | a result becomes `{success: true, data}` or `{success: false, error}` with the failure's message |
| Background.HandleMessage | taylor-resume-extension/src/background/background.js:34-58 | `getHighlightedText` is re-broadcast with identical data; only the two async actions return true and only they respond, successfully iff settings exist and name no unknown provider; `tailorResume` answers with the tailoring result and `generateCoverLetter` with the cover-letter result, each wrapped as `{success, data}` or `{success, error}` |
| SettingsPanel.DefaultsMatchInstall | taylor-resume-extension/src/components/Settings.jsx:4-8 | the view's defaults equal the install defaults and take the stub path |
| SettingsPanel.Load | taylor-resume-extension/src/components/Settings.jsx:11-17 | stored settings replace the state only when they exist |
| SettingsPanel.Save | taylor-resume-extension/src/components/Settings.jsx:20-24 | saving writes the settings and leaves the rest of storage alone |
| SettingsPanel.UpdateSetting | taylor-resume-extension/src/components/Settings.jsx:27-32 | the chosen key takes the value; the other key and the API keys are unchanged |
| SettingsPanel.UpdateApiKey | taylor-resume-extension/src/components/Settings.jsx:35-43 | `apiKeys[p]` becomes v, other providers' keys and both top-level settings are unchanged |
| SettingsPanel.KeyShown | taylor-resume-extension/src/components/Settings.jsx:113 | the key box shows the selected provider's key, or `""` when none is stored |
| SettingsPanel.KeyShownDecidesRouting | taylor-resume-extension/src/components/Settings.jsx:113 | a provider is called iff the view is in local mode and its key box is non-empty |
| SettingsPanel.TypedKeyIsUsed | taylor-resume-extension/src/components/Settings.jsx:114 | a key typed for the selected provider is shown at once and routes requests iff local mode and non-empty |
| SettingsPanel.SwitchProviderKeepsKeys | taylor-resume-extension/src/components/Settings.jsx:96 | switching provider keeps every stored key; switching back restores the settings and the shown key |
| SettingsPanel.ApiKeysCommute | taylor-resume-extension/src/components/Settings.jsx:35-43 | keys typed for different providers do not interfere, in either order |
| JobDescription.LineEnd | taylor-resume-extension/src/components/JobDescription.jsx:90 | the greedy `[^\n]+` runs to the first newline or the end |
| JobDescription.CaptureStart | taylor-resume-extension/src/components/JobDescription.jsx:90 | `\s*` gives back whitespace until a non-newline character can start the capture, or fails when none can |
| JobDescription.LabelCaptureAt | taylor-resume-extension/src/components/JobDescription.jsx:90 | the pattern matches at p only if the label does; a colon after the label always lets it match; `:?` takes the colon whenever a capture can follow it, so the colon is not captured; without a colon the capture starts where `\s*` leaves it |
| JobDescription.LabelMatchStart | taylor-resume-extension/src/components/JobDescription.jsx:96 | the match is at the leftmost position where the whole label pattern matches |
| JobDescription.LabelMatch | taylor-resume-extension/src/components/JobDescription.jsx:96-97 | a label pattern captures iff it matches somewhere, and its capture is never empty |
| JobDescription.LabelMatchShape | taylor-resume-extension/src/components/JobDescription.jsx:90-92 | the capture is the text from the capture start of the leftmost match to the end of that line, newline-free |
| JobDescription.JobTitleExample | taylor-resume-extension/src/components/JobDescription.jsx:90 | on "Job Title: Engineer" the title pattern captures exactly "Engineer": neither the colon nor the space |
| JobDescription.FirstHit | taylor-resume-extension/src/components/JobDescription.jsx:95-101 | the loop stops at the first pattern in list order that matches with a non-empty capture |
| JobDescription.FirstMatch | taylor-resume-extension/src/components/JobDescription.jsx:95-101 | a value is found iff some pattern hits; it is the trimmed capture of the first one that does |
| JobDescription.FirstMatchIgnoresLater | taylor-resume-extension/src/components/JobDescription.jsx:95-101 | patterns after the first hit are never consulted |
| JobDescription.LabelHits | taylor-resume-extension/src/components/JobDescription.jsx:97 | `match && match[1]` holds for a label pattern exactly when it matches |
| JobDescription.ExtractJobInfo | taylor-resume-extension/src/components/JobDescription.jsx:77-132 | title, company and location are each the first-match-wins result over their own ordered pattern lists, set iff one of their patterns hits, and trimmed; seniority stays null |
| JobDescription.CompanyLabelWins | taylor-resume-extension/src/components/JobDescription.jsx:104-115 | an explicit `company` label wins over the `at …` pattern |
| JobDescription.ExtractedInfo | taylor-resume-extension/src/components/JobDescription.jsx:13 | an empty job description yields no extraction at all |
| JobDescription.Save | taylor-resume-extension/src/components/JobDescription.jsx:7-10 | save hands the edited text unchanged to the app and closes the box |
| JobDescription.Cancel | taylor-resume-extension/src/components/JobDescription.jsx:28 | cancel closes the box and leaves the job description alone |
| JobDescription.CancelKeepsDraft | taylor-resume-extension/src/components/JobDescription.jsx:5 | after a cancel the typed draft is still in the box and a later save stores it |
| ResumeParser.HeaderAt | taylor-resume-extension/src/utils/resumeParser.js:68 | at one position the header alternatives are tried in the order listed |
| ResumeParser.HeaderPosition | taylor-resume-extension/src/utils/resumeParser.js:68 | the match starts at the leftmost position where any header opens a section |
| ResumeParser.SectionSpan | taylor-resume-extension/src/utils/resumeParser.js:68 | the body starts right after the header, takes at least one character, and ends at the first later stop word or the end |
| ResumeParser.Section | taylor-resume-extension/src/utils/resumeParser.js:69-71 | a section is trimmed, and `''` when no header matches |
| ResumeParser.SectionIsSubstring | taylor-resume-extension/src/utils/resumeParser.js:68-71 | the section is a piece of the input lying inside the captured span with only whitespace between it and either end of the span |
| ResumeParser.SectionUnique | taylor-resume-extension/src/utils/resumeParser.js:68-71 | conversely any trimmed piece of the span with only whitespace around it inside the span is the section, so the two lemmas fix the section's text |
| ResumeParser.ExtractSections | taylor-resume-extension/src/utils/resumeParser.js:54-94 | `contact` stays `''`, every field is trimmed, a field whose header never occurs stays `''`, and each other field is the section found by its own header and stop lists |
| ResumeParser.SectionsAreSubstrings | taylor-resume-extension/src/utils/resumeParser.js:68-90 | each of the five extracted sections is a trimmed substring of the input |
| ResumeParser.SkillsBodyRules | taylor-resume-extension/src/utils/resumeParser.js:73-76 | the skills body starts after the leftmost `skills` with a following character, consumes that character, and ends at the first later `experience`/`education`/`projects` or the end; the `skills` field is that body trimmed |
| ResumeParser.LeftmostHeaderWins | taylor-resume-extension/src/utils/resumeParser.js:68 | an earlier header wins whatever alternative opens there |
| ResumeParser.HeaderAtEndOpensNothing | taylor-resume-extension/src/utils/resumeParser.js:68 | a header at the very end opens nothing, since `(.+?)` needs one character |
| ResumeParser.WorkInsideWord | taylor-resume-extension/src/utils/resumeParser.js:78 | matching ignores case and finds `work` inside "FrameWork" |
| Text.Trim | taylor-resume-extension/src/components/ResumeUploader.jsx:305 | `trim()` leaves no leading or trailing whitespace and changes nothing already trimmed |
| Text.TrimIdempotent | taylor-resume-extension/src/components/JobDescription.jsx:98 | trimming twice is trimming once |
| Text.TrimPadded | taylor-resume-extension/src/components/ResumeUploader.jsx:305 | whitespace, then a trimmed text, then whitespace trims to exactly that text |
| Text.TrimEmpty | taylor-resume-extension/src/components/ResumeUploader.jsx:456 | trimming gives `""` iff the text is all whitespace |
| Text.SplitOn | taylor-resume-extension/src/components/ResumeUploader.jsx:305 | `split` always gives at least one piece and no piece holds a separator |
| Text.JoinSplit | taylor-resume-extension/src/components/ResumeUploader.jsx:305 | joining the pieces of a split with the separator gives back the text |
| Text.SplitJoin | taylor-resume-extension/src/components/ResumeUploader.jsx:304-305 | splitting a join of separator-free pieces gives back the pieces |
| Text.NonEmpty | taylor-resume-extension/src/components/ResumeUploader.jsx:457 | `filter(Boolean)` keeps exactly the non-empty strings; a list without empty strings is kept whole and one of only empty strings gives `[]` |
| Text.NonEmptyAppend | taylor-resume-extension/src/components/ResumeUploader.jsx:457 | filtering distributes over concatenation, so with the two uniform cases it keeps the order of the kept strings |
| Text.JoinTrimmed | taylor-resume-extension/src/components/ResumeUploader.jsx:456 | joining non-empty trimmed parts gives text that trim leaves alone |

## Left out

- Browser storage, runtime messaging, the clipboard, `alert` and the `.docx` export are I/O. The model keeps only the values written or sent: `Background.Store`, `Background.Outcome`, `ResumeEditor.CopiedText`.
- The PDF and DOCX readers (`parseResumePDF`, `parseResumeDocx`) call foreign libraries through `FileReader`. They are not part of this model.
- `JSON.stringify` is the parameter `serialize`, and the e-mail, phone, `at\s+…` and `in\s+…` regular expressions are parameters (`string -> Option<string>`). They rely on character classes whose exact JavaScript semantics are not modelled.
- Real provider HTTP calls do not exist in the code (placeholders only). The API key and prompt reach `Background.CallModelProvider` but are unused, as in the code.
- `Date.now()` ids are a parameter of `ResumeUploader.AddExperience`.
- ResumeUploader.ChangeBullet: requires the index to be in range for every matching entry. An out-of-range assignment that creates array holes is not modelled.
- ResumeEditor.ApplySuggestion: models the functional result. The shallow copy in the code also mutates the shared experience object in place, which is aliasing and is not modelled.
- ResumeUploader.SetField: the field is one of the five text fields the form edits, rather than any property name.
- SettingsPanel.UpdateSetting: the key is one of the two settings the view edits, rather than any property name.
- String lengths (the 50-character guards) count code points, not UTF-16 code units.
- `handleResumeChange` for fields other than skills, the other form handlers and `handleSubmitResume` only store values. They are not modelled beyond the skills box.
- The views' handling of a failed response (`response?.error || 'Failed …'`), loading flags and the "Error communicating" branch are view state.
- A `ProviderReply` reaching a view is not handled by either view, since the views read fields the placeholder does not carry.
- The message of `Background.Fault.SettingsMissing` is the TypeError text of the V8 engine for reading `privacyMode` of `undefined`.
- content.js (DOM scraping and selection listeners) and App.jsx view steps are UI glue.
- ResumeEditor.StarsClamp: a relevance that is not a JSON number (a numeric string, say, which `<` would coerce) is not modelled; relevance is a `real`.
- CoverLetter.Words: its own contract states only that a leading non-space gives a word. The run shape, the count and the split around a space are stated by the lemmas `WordsAreRuns`, `CountWordsIsRunCount` and `WordsAroundSpace`.

=== FILE: background.dfy ===
/** The background service worker: storage defaults on install, the
    message router, the choice between a model provider and the stub
    reply, provider dispatch, and the two prompt templates. */
module Background {
  import opened Common
  import opened Text
  import opened Records

  // ----- install defaults -----

  /** Local mode, OpenRouter, no keys. */
  const DefaultSettings: Settings := Settings("local", "openRouter", map[])

  /** What the extension keeps in local storage.  `settings` is None once
      the user has cleared all data. */
  datatype Store = Store(
    profile: Profile,
    resume: Resume,
    settings: Option<Settings>,
    cachedJobDescriptions: seq<string>)

  /** The store written when the extension is installed: everything empty
      except the default settings. */
  function InstallStore(): (s: Store)
    ensures s.profile.name == "" && s.profile.email == "" && s.profile.phone == ""
    ensures s.profile.location == "" && s.profile.links == []
    ensures s.resume.summary == "" && s.resume.skills == [] && s.resume.experience == []
    ensures s.resume.projects == [] && s.resume.education == []
    ensures s.settings.Some? && s.settings.value.privacyMode == "local"
    ensures s.settings.value.selectedModelProvider == "openRouter" && s.settings.value.apiKeys == map[]
    ensures s.cachedJobDescriptions == []
  {
    Store(EmptyProfile, EmptyResume, Some(DefaultSettings), [])
  }

  // ----- replies and failures -----

  /** What the background hands back: a tailoring, a cover letter, or the
      raw reply of a model provider. */
  datatype Reply =
    | TailoringReply(tailoring: Tailoring)
    | LetterReply(coverLetter: string, wordCount: int)
    | ProviderReply(message: string)

  /** Why a request failed: an unknown provider name, or no settings in
      storage (reading a field of undefined). */
  datatype Fault = UnsupportedProvider(provider: string) | SettingsMissing

  function FaultMessage(f: Fault): string {
    match f
    case UnsupportedProvider(p) => "Unsupported model provider: " + p
    case SettingsMissing => "Cannot read properties of undefined (reading 'privacyMode')"
  }

  // ----- provider dispatch -----

  const Providers: seq<string> := ["openRouter", "together", "fireworks", "ollama", "openai"]

  /** The display name used in a provider's placeholder reply. */
  function ProviderTitle(provider: string): Option<string> {
    match provider
    case "openRouter" => Some("OpenRouter")
    case "together" => Some("Together")
    case "fireworks" => Some("Fireworks")
    case "ollama" => Some("Ollama")
    case "openai" => Some("OpenAI")
    case _ => None
  }

  const PlaceholderLead: string := "This is a placeholder for "

  /** The five known providers answer with a placeholder message; any other
      name fails with "Unsupported model provider: <name>".  The key and the
      prompt are not used yet. */
  function CallModelProvider(provider: string, apiKey: string, prompt: string): (r: Result<Reply, Fault>)
    ensures r.Success? <==> provider in Providers
    ensures r.Failure? ==> r.error == UnsupportedProvider(provider)
    ensures r.Failure? ==> FaultMessage(r.error) == "Unsupported model provider: " + provider
    ensures r.Success? ==> r.value.ProviderReply? && OccursAt(r.value.message, 0, PlaceholderLead)
  {
    match ProviderTitle(provider)
    case None => Failure(UnsupportedProvider(provider))
    case Some(t) =>
      var m := PlaceholderLead + t + " API response";
      assert m[..|PlaceholderLead|] == PlaceholderLead;
      Success(ProviderReply(m))
  }

  /** The reply text of a known provider: the lead, its display name, then
      " API response". */
  lemma PlaceholderMessage(provider: string, apiKey: string, prompt: string)
    requires ProviderTitle(provider).Some?
    ensures CallModelProvider(provider, apiKey, prompt) ==
      Success(ProviderReply(PlaceholderLead + ProviderTitle(provider).value + " API response"))
  {
  }

  lemma OpenRouterMessage(apiKey: string, prompt: string)
    ensures CallModelProvider("openRouter", apiKey, prompt) ==
      Success(ProviderReply("This is a placeholder for OpenRouter API response"))
  {
    assert PlaceholderLead + "OpenRouter" + " API response" == "This is a placeholder for OpenRouter API response";
  }

  lemma TogetherMessage(apiKey: string, prompt: string)
    ensures CallModelProvider("together", apiKey, prompt) ==
      Success(ProviderReply("This is a placeholder for Together API response"))
  {
    assert PlaceholderLead + "Together" + " API response" == "This is a placeholder for Together API response";
  }

  lemma FireworksMessage(apiKey: string, prompt: string)
    ensures CallModelProvider("fireworks", apiKey, prompt) ==
      Success(ProviderReply("This is a placeholder for Fireworks API response"))
  {
    assert PlaceholderLead + "Fireworks" + " API response" == "This is a placeholder for Fireworks API response";
  }

  lemma OllamaMessage(apiKey: string, prompt: string)
    ensures CallModelProvider("ollama", apiKey, prompt) ==
      Success(ProviderReply("This is a placeholder for Ollama API response"))
  {
    assert PlaceholderLead + "Ollama" + " API response" == "This is a placeholder for Ollama API response";
  }

  lemma OpenAIMessage(apiKey: string, prompt: string)
    ensures CallModelProvider("openai", apiKey, prompt) ==
      Success(ProviderReply("This is a placeholder for OpenAI API response"))
  {
    assert PlaceholderLead + "OpenAI" + " API response" == "This is a placeholder for OpenAI API response";
  }

  // ----- routing -----

  /** The selected provider is called only in local mode with a key typed
      for it; an empty key counts as none. */
  predicate CallsProvider(s: Settings) {
    s.privacyMode == "local" &&
    s.selectedModelProvider in s.apiKeys && s.apiKeys[s.selectedModelProvider] != ""
  }

  /** The settings route to a provider the dispatcher does not know. */
  predicate Unsupported(s: Settings) {
    CallsProvider(s) && s.selectedModelProvider !in Providers
  }

  /** A reply that came from (or was refused by) provider dispatch. */
  predicate FromProvider(r: Result<Reply, Fault>) {
    (r.Success? && r.value.ProviderReply?) || (r.Failure? && r.error.UnsupportedProvider?)
  }

  /** Shared by tailoring and cover letters: call the provider or return
      the stub. */
  function Route(stored: Option<Settings>, prompt: string, stub: Reply): (r: Result<Reply, Fault>)
    requires !stub.ProviderReply?
    ensures FromProvider(r) <==> stored.Some? && CallsProvider(stored.value)
    ensures r == Success(stub) <==> stored.Some? && !CallsProvider(stored.value)
    ensures r == Failure(SettingsMissing) <==> stored.None?
    ensures r.Failure? <==> stored.None? || Unsupported(stored.value)
    ensures stored.Some? && CallsProvider(stored.value) ==>
      r == CallModelProvider(stored.value.selectedModelProvider,
                             stored.value.apiKeys[stored.value.selectedModelProvider], prompt)
  {
    match stored
    case None => Failure(SettingsMissing)
    case Some(s) =>
      if CallsProvider(s) then CallModelProvider(s.selectedModelProvider, s.apiKeys[s.selectedModelProvider], prompt)
      else Success(stub)
  }

  /** The stub tailoring returned when no provider is called. */
  const StubSuggestion: ExperienceSuggestion := ExperienceSuggestion(
    "exp1", 2.0, "This experience is relevant because...",
    ["Led cross-functional team to deliver project X on time and under budget, resulting in 20% cost savings.",
     "Implemented automated testing framework that reduced bug reports by 35% and improved deployment speed."],
    ["Project Management", "Automated Testing"])

  const StubTailoring: Tailoring :=
    Tailoring(["Skill 1", "Skill 2", "Skill 3"], Some([StubSuggestion]))

  const StubLetterText: string := "Dear Hiring Manager,\n\nI am excited to apply for the position of..."

  const StubLetter: Reply := LetterReply(StubLetterText, 320)

  function ProcessResumeTailoring(stored: Option<Settings>, resume: Resume, jd: string,
                                  serialize: Resume -> string): (r: Result<Reply, Fault>)
    ensures FromProvider(r) <==> stored.Some? && CallsProvider(stored.value)
    ensures r == Success(TailoringReply(StubTailoring)) <==> stored.Some? && !CallsProvider(stored.value)
    ensures stored.None? <==> r == Failure(SettingsMissing)
    ensures r.Failure? <==> stored.None? || Unsupported(stored.value)
    ensures stored.Some? && CallsProvider(stored.value) ==>
      r == CallModelProvider(stored.value.selectedModelProvider,
                             stored.value.apiKeys[stored.value.selectedModelProvider],
                             TailoringPrompt(serialize(resume), jd))
  {
    Route(stored, TailoringPrompt(serialize(resume), jd), TailoringReply(StubTailoring))
  }

  function GenerateCoverLetter(stored: Option<Settings>, resume: Resume, jd: string,
                               serialize: Resume -> string): (r: Result<Reply, Fault>)
    ensures FromProvider(r) <==> stored.Some? && CallsProvider(stored.value)
    ensures r == Success(StubLetter) <==> stored.Some? && !CallsProvider(stored.value)
    ensures stored.None? <==> r == Failure(SettingsMissing)
    ensures r.Failure? <==> stored.None? || Unsupported(stored.value)
    ensures stored.Some? && CallsProvider(stored.value) ==>
      r == CallModelProvider(stored.value.selectedModelProvider,
                             stored.value.apiKeys[stored.value.selectedModelProvider],
                             CoverLetterPrompt(serialize(resume), jd))
  {
    Route(stored, CoverLetterPrompt(serialize(resume), jd), StubLetter)
  }

  /** Fresh installs never reach a provider, and neither does anonymous
      mode, whatever keys are stored. */
  lemma StubPaths(s: Settings, resume: Resume, jd: string, serialize: Resume -> string)
    ensures ProcessResumeTailoring(Some(DefaultSettings), resume, jd, serialize) == Success(TailoringReply(StubTailoring))
    ensures GenerateCoverLetter(Some(DefaultSettings), resume, jd, serialize) == Success(StubLetter)
    ensures s.privacyMode != "local" ==>
      ProcessResumeTailoring(Some(s), resume, jd, serialize) == Success(TailoringReply(StubTailoring)) &&
      GenerateCoverLetter(Some(s), resume, jd, serialize) == Success(StubLetter)
  {
    assert !CallsProvider(DefaultSettings);
  }

  /** Every stub suggestion's relevance lies in the 0 to 3 range the
      tailoring prompt asks for. */
  lemma StubRelevanceInRange()
    ensures StubTailoring.experienceSuggestions.Some?
    ensures forall e :: e in StubTailoring.experienceSuggestions.value ==> 0.0 <= e.relevance <= 3.0
  {
  }

  // ----- prompts -----

  /** Both prompts share this shape: an introduction ending in the
      serialised resume's heading, the resume, a job-description heading,
      the job description between triple quotes, then the instructions. */
  function FencedPrompt(intro: string, json: string, jdHeading: string, jd: string, task: string): string {
    intro + json + "\n\n" + jdHeading + "\n\"\"\"\n" + jd + "\n\"\"\"\n\n" + task
  }

  const TailoringIntro: string :=
    "\nSystem: You are a strict resume editor. Never invent experience. Use action verbs + metrics.\nUser:\nRESUME (JSON):\n"

  const TailoringTask: string :=
    "TASK:\n1) List the 6\U{2013}10 most relevant skills/phrases from the JD.\n" +
    "2) For each RESUME experience or project, output:\n" +
    "   - Relevance (0\U{2013}3) and why\n" +
    "   - 1\U{2013}2 rewritten bullets that align with the JD while staying truthful\n" +
    "   - Optional skill tags to add under \"Skills\"\n" +
    "Constraints:\n" +
    "- Keep bullets <= 25 words, start with strong verbs, add concrete metrics where they already exist.\n" +
    "- DO NOT invent tools or results that aren't in the resume. If missing, suggest neutral phrasing (e.g., \"optimized\", \"improved\") without fake numbers.\n"

  const CoverLetterIntro: string :=
    "\nSystem: You write concise, specific cover letters grounded ONLY in the provided resume.\nUser:\nRESUME (JSON):\n"

  const CoverLetterTask: string :=
    "Write a 250\U{2013}350 word letter:\n" +
    "- 1: Hook + why this role/company\n" +
    "- 2: 2\U{2013}3 proof points from resume mapped to JD requirements (no new claims)\n" +
    "- 3: Close + availability + polite CTA\n" +
    "Tone: crisp, professional, specific. No fluff or clich\U{00E9}s.\n"

  function TailoringPrompt(json: string, jd: string): string {
    FencedPrompt(TailoringIntro, json, "JOB DESCRIPTION (text):", jd, TailoringTask)
  }

  function CoverLetterPrompt(json: string, jd: string): string {
    FencedPrompt(CoverLetterIntro, json, "JOB DESCRIPTION:", jd, CoverLetterTask)
  }

  const Fence: string := "\"\"\""

  /** The serialised resume sits right after the introduction, and the job
      description follows it verbatim, with a triple-quote line just before
      and just after it. */
  lemma {:induction false} FencedPromptLayout(intro: string, json: string, jdHeading: string, jd: string, task: string)
    ensures var p := FencedPrompt(intro, json, jdHeading, jd, task);
      var b := |intro| + |json| + 2 + |jdHeading| + 5;
      OccursAt(p, |intro|, json) &&
      OccursAt(p, b - 4, Fence + "\n") &&
      OccursAt(p, b, jd) &&
      OccursAt(p, b + |jd|, "\n" + Fence) &&
      |p| == b + |jd| + 6 + |task|
  {
    PromptCarriesResume(intro, json, jdHeading, jd, task);
    PromptOpensFence(intro, json, jdHeading, jd, task);
    PromptCarriesJobDescription(intro, json, jdHeading, jd, task);
    PromptClosesFence(intro, json, jdHeading, jd, task);
  }

  lemma PromptCarriesResume(intro: string, json: string, jdHeading: string, jd: string, task: string)
    ensures OccursAt(FencedPrompt(intro, json, jdHeading, jd, task), |intro|, json)
  {
    var a := intro + json;
    var h := a + "\n\n" + jdHeading;
    var f := h + "\n\"\"\"\n";
    var c := f + jd;
    var d := c + "\n\"\"\"\n\n";
    OccursAtEnd(intro, json);
    OccursExtend(a, |intro|, json, "\n\n");
    OccursExtend(a + "\n\n", |intro|, json, jdHeading);
    OccursExtend(h, |intro|, json, "\n\"\"\"\n");
    OccursExtend(f, |intro|, json, jd);
    OccursExtend(c, |intro|, json, "\n\"\"\"\n\n");
    OccursExtend(d, |intro|, json, task);
  }

  lemma PromptOpensFence(intro: string, json: string, jdHeading: string, jd: string, task: string)
    ensures OccursAt(FencedPrompt(intro, json, jdHeading, jd, task),
                     |intro| + |json| + 2 + |jdHeading| + 1, Fence + "\n")
  {
    var open := "\n\"\"\"\n";
    var h := intro + json + "\n\n" + jdHeading;
    var f := h + open;
    var c := f + jd;
    var d := c + "\n\"\"\"\n\n";
    OccursAtEnd(h, open);
    assert OccursAt(open, 1, Fence + "\n");
    OccursWithin(f, |h|, open, 1, Fence + "\n");
    OccursExtend(f, |h| + 1, Fence + "\n", jd);
    OccursExtend(c, |h| + 1, Fence + "\n", "\n\"\"\"\n\n");
    OccursExtend(d, |h| + 1, Fence + "\n", task);
  }

  lemma PromptCarriesJobDescription(intro: string, json: string, jdHeading: string, jd: string, task: string)
    ensures OccursAt(FencedPrompt(intro, json, jdHeading, jd, task),
                     |intro| + |json| + 2 + |jdHeading| + 5, jd)
  {
    var f := intro + json + "\n\n" + jdHeading + "\n\"\"\"\n";
    var c := f + jd;
    var d := c + "\n\"\"\"\n\n";
    OccursAtEnd(f, jd);
    OccursExtend(c, |f|, jd, "\n\"\"\"\n\n");
    OccursExtend(d, |f|, jd, task);
  }

  lemma PromptClosesFence(intro: string, json: string, jdHeading: string, jd: string, task: string)
    ensures OccursAt(FencedPrompt(intro, json, jdHeading, jd, task),
                     |intro| + |json| + 2 + |jdHeading| + 5 + |jd|, "\n" + Fence)
  {
    var close := "\n\"\"\"\n\n";
    var c := intro + json + "\n\n" + jdHeading + "\n\"\"\"\n" + jd;
    var d := c + close;
    OccursAtEnd(c, close);
    assert OccursAt(close, 0, "\n" + Fence);
    OccursWithin(d, |c|, close, 0, "\n" + Fence);
    OccursExtend(d, |c|, "\n" + Fence, task);
  }

  /** Same-length resumes give the same prompt only for the same resume and
      job description: nothing of either is lost. */
  lemma {:induction false} FencedPromptInjective(intro: string, heading: string, task: string,
                                                j1: string, d1: string, j2: string, d2: string)
    requires |j1| == |j2|
    requires FencedPrompt(intro, j1, heading, d1, task) == FencedPrompt(intro, j2, heading, d2, task)
    ensures j1 == j2 && d1 == d2
  {
    FencedPromptLayout(intro, j1, heading, d1, task);
    FencedPromptLayout(intro, j2, heading, d2, task);
  }

  lemma TailoringPromptLayout(json: string, jd: string)
    ensures var b := |TailoringIntro| + |json| + 30;
      OccursAt(TailoringPrompt(json, jd), |TailoringIntro|, json) &&
      OccursAt(TailoringPrompt(json, jd), b - 4, Fence + "\n") &&
      OccursAt(TailoringPrompt(json, jd), b, jd) &&
      OccursAt(TailoringPrompt(json, jd), b + |jd|, "\n" + Fence)
  {
    var p := TailoringPrompt(json, jd);
    var h := "JOB DESCRIPTION (text):";
    assert |h| == 23;
    assert p == FencedPrompt(TailoringIntro, json, h, jd, TailoringTask);
    var b := |TailoringIntro| + |json| + 30;
    PromptCarriesResume(TailoringIntro, json, h, jd, TailoringTask);
    PromptOpensFence(TailoringIntro, json, h, jd, TailoringTask);
    PromptCarriesJobDescription(TailoringIntro, json, h, jd, TailoringTask);
    PromptClosesFence(TailoringIntro, json, h, jd, TailoringTask);
  }

  lemma CoverLetterPromptLayout(json: string, jd: string)
    ensures var b := |CoverLetterIntro| + |json| + 23;
      OccursAt(CoverLetterPrompt(json, jd), |CoverLetterIntro|, json) &&
      OccursAt(CoverLetterPrompt(json, jd), b - 4, Fence + "\n") &&
      OccursAt(CoverLetterPrompt(json, jd), b, jd) &&
      OccursAt(CoverLetterPrompt(json, jd), b + |jd|, "\n" + Fence)
  {
    var h := "JOB DESCRIPTION:";
    assert |h| == 16;
    FencedPromptLayout(CoverLetterIntro, json, h, jd, CoverLetterTask);
  }

  // ----- the message router -----

  datatype Message =
    | GetHighlightedText(data: string)
    | TailorResume(resume: Resume, jobDescription: string)
    | GenerateCoverLetterRequest(resume: Resume, jobDescription: string)
    | OtherAction(action: string)

  /** The message re-broadcast to the popup. */
  datatype Broadcast = UpdateHighlightedText(data: string)

  /** `{success: true, data}` or `{success: false, error}`. */
  datatype Response = Response(success: bool, data: Option<Reply>, error: Option<string>)

  function ToResponse(r: Result<Reply, Fault>): (resp: Response)
    ensures resp.success <==> r.Success?
    ensures resp.success ==> resp.data == Some(r.value) && resp.error.None?
    ensures !resp.success ==> resp.data.None? && resp.error == Some(FaultMessage(r.error))
  {
    match r
    case Success(v) => Response(true, Some(v), None)
    case Failure(e) => Response(false, None, Some(FaultMessage(e)))
  }

  /** What the listener does with one message: what it re-broadcasts, the
      response it eventually sends, and whether it returns true to keep
      the channel open for that late response. */
  datatype Outcome = Outcome(broadcast: Option<Broadcast>, response: Option<Response>, keepOpen: bool)

  function HandleMessage(m: Message, stored: Option<Settings>, serialize: Resume -> string): (o: Outcome)
    ensures o.keepOpen <==> m.TailorResume? || m.GenerateCoverLetterRequest?
    ensures o.response.Some? <==> o.keepOpen
    ensures o.broadcast.Some? <==> m.GetHighlightedText?
    ensures o.broadcast.Some? ==> o.broadcast.value.data == m.data
    ensures o.response.Some? ==>
      (o.response.value.success <==> stored.Some? && !Unsupported(stored.value))
    ensures m.TailorResume? ==>
      o.response == Some(ToResponse(ProcessResumeTailoring(stored, m.resume, m.jobDescription, serialize)))
    ensures m.GenerateCoverLetterRequest? ==>
      o.response == Some(ToResponse(GenerateCoverLetter(stored, m.resume, m.jobDescription, serialize)))
  {
    match m
    case GetHighlightedText(d) => Outcome(Some(UpdateHighlightedText(d)), None, false)
    case TailorResume(res, jd) =>
      Outcome(None, Some(ToResponse(ProcessResumeTailoring(stored, res, jd, serialize))), true)
    case GenerateCoverLetterRequest(res, jd) =>
      Outcome(None, Some(ToResponse(GenerateCoverLetter(stored, res, jd, serialize))), true)
    case OtherAction(_) => Outcome(None, None, false)
  }
}

=== FILE: common.dfy ===
/** Shared building blocks: optional values, results, and the ordered
    "first position that qualifies wins" search every extractor relies on. */
module Common {

  /** JavaScript's null/undefined on one side, a value on the other. */
  datatype Option<+T> = None | Some(value: T) {
    function GetOr(default: T): T {
      match this
      case Some(v) => v
      case None => default
    }
  }

  /** A value, or the error a thrown exception would have carried. */
  datatype Result<+R, +E> = Success(value: R) | Failure(error: E)

  /** The least index in [lo, hi) satisfying P, if any.  This is the
      leftmost-match rule of a regular-expression search and of
      Array.prototype.findIndex. */
  function FindFirst(lo: nat, hi: nat, P: nat -> bool): (r: Option<nat>)
    decreases hi - lo
    ensures r.Some? ==> lo <= r.value < hi && P(r.value)
    ensures r.Some? ==> forall j :: lo <= j < r.value ==> !P(j)
    ensures r.None? ==> forall j :: lo <= j < hi ==> !P(j)
  {
    if lo >= hi then None
    else if P(lo) then Some(lo)
    else FindFirst(lo + 1, hi, P)
  }

  /** The greatest index in [lo, hi) satisfying P, if any: how a greedy
      quantifier gives characters back while backtracking. */
  function FindLast(lo: nat, hi: nat, P: nat -> bool): (r: Option<nat>)
    decreases hi - lo
    ensures r.Some? ==> lo <= r.value < hi && P(r.value)
    ensures r.Some? ==> forall j :: r.value < j < hi ==> !P(j)
    ensures r.None? ==> forall j :: lo <= j < hi ==> !P(j)
  {
    if lo >= hi then None
    else if P(hi - 1) then Some(hi - 1)
    else FindLast(lo, hi - 1, P)
  }
}

=== FILE: cover_letter.dfy ===
/** The cover-letter view: counting words, the target-length band, which
    count is shown, and the guards in front of a generation request. */
module CoverLetter {
  import opened Common
  import opened Text
  import opened Records
  import ResumeEditor

  // ----- counting words -----

  /** `text.split(/\s+/).filter(Boolean)`: the maximal runs of
      non-whitespace characters, in order. */
  function Words(s: string): (r: seq<string>)
    ensures s != [] && !IsSpace(s[0]) ==> |r| > 0
  {
    if |s| == 0 then []
    else if IsSpace(s[0]) then Words(s[1..])
    else
      var w := Words(s[1..]);
      if |s| > 1 && !IsSpace(s[1]) then [[s[0]] + w[0]] + w[1..]
      else [[s[0]]] + w
  }

  /** Every word is non-empty and free of whitespace. */
  lemma {:induction false} WordsAreRuns(s: string)
    ensures forall i :: 0 <= i < |Words(s)| ==>
      Words(s)[i] != [] && (forall k :: 0 <= k < |Words(s)[i]| ==> !IsSpace(Words(s)[i][k]))
  {
    if |s| > 0 {
      WordsAreRuns(s[1..]);
    }
  }

  function CountWords(text: string): nat {
    |Words(text)|
  }

  /** Reference count: a word begins at each non-whitespace character that
      opens the text (afterSpace) or follows whitespace. */
  function RunStarts(s: string, afterSpace: bool): nat {
    if |s| == 0 then 0
    else (if afterSpace && !IsSpace(s[0]) then 1 else 0) + RunStarts(s[1..], IsSpace(s[0]))
  }

  /** countWords is the number of maximal runs of non-whitespace. */
  lemma {:induction false} CountWordsIsRunCount(s: string)
    ensures CountWords(s) == RunStarts(s, true)
    ensures RunStarts(s, false) == CountWords(s) - (if s != [] && !IsSpace(s[0]) then 1 else 0)
  {
    if |s| > 0 {
      CountWordsIsRunCount(s[1..]);
    }
  }

  /** Empty and all-whitespace text, and only such text, count zero words. */
  lemma {:induction false} CountWordsZero(s: string)
    ensures CountWords(s) == 0 <==> AllSpace(s)
  {
    if |s| > 0 {
      CountWordsZero(s[1..]);
      if IsSpace(s[0]) {
        assert AllSpace(s) <==> AllSpace(s[1..]) by {
          assert forall i :: 1 <= i < |s| ==> s[i] == s[1..][i - 1];
        }
      } else {
        assert !AllSpace(s) by { assert !IsSpace(s[0]); }
      }
    }
  }

  lemma WordsConsSpace(c: char, s: string)
    requires IsSpace(c)
    ensures Words([c] + s) == Words(s)
  {
    assert ([c] + s)[1..] == s;
  }

  /** A non-space character in front of a word joins that word. */
  lemma WordsConsJoin(c: char, s: string)
    requires !IsSpace(c) && s != [] && !IsSpace(s[0])
    ensures Words([c] + s) == [[c] + Words(s)[0]] + Words(s)[1..]
  {
    assert ([c] + s)[1..] == s;
  }

  /** A non-space character before whitespace (or the end) is a word. */
  lemma WordsConsNew(c: char, s: string)
    requires !IsSpace(c) && (s == [] || IsSpace(s[0]))
    ensures Words([c] + s) == [[c]] + Words(s)
  {
    assert ([c] + s)[1..] == s;
  }

  /** One character in front of a text that already splits around a space. */
  lemma WordsAroundSpaceStep(c: char, r: string, b: string)
    requires Words(r + " " + b) == Words(r) + Words(b)
    ensures Words([c] + r + " " + b) == Words([c] + r) + Words(b)
  {
    var rest := r + " " + b;
    assert [c] + r + " " + b == [c] + rest;
    if IsSpace(c) {
      WordsConsSpace(c, rest);
      WordsConsSpace(c, r);
    } else if r != [] && !IsSpace(r[0]) {
      assert rest[0] == r[0];
      WordsConsJoin(c, rest);
      WordsConsJoin(c, r);
      JoinedWordSplits([c], Words(r), Words(b));
    } else {
      assert rest[0] == if r != [] then r[0] else ' ';
      WordsConsNew(c, rest);
      WordsConsNew(c, r);
      ConcatAssoc([[c]], Words(r), Words(b));
    }
  }

  lemma JoinedWordSplits(c: string, wr: seq<string>, wb: seq<string>)
    requires wr != []
    ensures [c + (wr + wb)[0]] + (wr + wb)[1..] == [c + wr[0]] + wr[1..] + wb
  {
    assert (wr + wb)[0] == wr[0];
    assert (wr + wb)[1..] == wr[1..] + wb;
  }

  /** Words of a text joined by a space are the words of each part. */
  lemma {:induction false} WordsAroundSpace(a: string, b: string)
    ensures Words(a + " " + b) == Words(a) + Words(b)
  {
    if |a| == 0 {
      assert a + " " + b == [' '] + b;
      WordsConsSpace(' ', b);
    } else {
      WordsAroundSpace(a[1..], b);
      WordsAroundSpaceStep(a[0], a[1..], b);
      assert a == [a[0]] + a[1..];
    }
  }

  lemma CountWordsAdd(a: string, b: string)
    ensures CountWords(a + " " + b) == CountWords(a) + CountWords(b)
  {
    WordsAroundSpace(a, b);
  }

  // ----- the target-length band -----

  datatype Band = UnderTarget | OverTarget | GoodLength

  /** The aim is 250 to 350 words, both ends included. */
  function LengthBand(count: int): (b: Band)
    ensures b == UnderTarget <==> count < 250
    ensures b == OverTarget <==> count > 350
    ensures b == GoodLength <==> 250 <= count <= 350
  {
    if count < 250 then UnderTarget else if count > 350 then OverTarget else GoodLength
  }

  function BandLabel(b: Band): string {
    match b
    case UnderTarget => "Under target"
    case OverTarget => "Over target"
    case GoodLength => "Good length"
  }

  /** The label shown next to the count; each label is shown for exactly
      one range of counts, so the label tells the band. */
  function LengthLabel(count: int): (l: string)
    ensures l == "Under target" <==> count < 250
    ensures l == "Over target" <==> count > 350
    ensures l == "Good length" <==> 250 <= count <= 350
  {
    BandLabel(LengthBand(count))
  }

  // ----- the count shown -----

  /** `response.data.wordCount || countWords(response.data.coverLetter)`:
      a missing or zero count from the reply falls back to counting. */
  function DisplayedWordCount(wordCount: Option<int>, letter: string): (n: int)
    ensures wordCount.Some? && wordCount.value != 0 ==> n == wordCount.value
    ensures wordCount.None? || wordCount == Some(0) ==> n == CountWords(letter)
    ensures n == 0 ==> AllSpace(letter)
  {
    CountWordsZero(letter);
    match wordCount
    case Some(w) => if w != 0 then w else CountWords(letter)
    case None => CountWords(letter)
  }

  // ----- guards -----

  const MissingInputError: string :=
    "Both resume and job description are required to generate a cover letter"

  /** The data sent with a 'generateCoverLetter' request. */
  datatype LetterRequest = LetterRequest(resume: Resume, jobDescription: string)

  /** The request to send, or the error shown instead of sending one. */
  function StartGeneration(resume: Option<Resume>, jd: string): (r: Result<LetterRequest, string>)
    ensures r.Failure? <==> resume.None? || jd == ""
    ensures r.Failure? ==> r.error == MissingInputError
    ensures r.Success? ==> r.value.resume == resume.value && r.value.jobDescription == jd
  {
    if resume.None? || jd == "" then Failure(MissingInputError)
    else Success(LetterRequest(resume.value, jd))
  }

  /** The view offers generation only for a job description of 50 or more
      characters (a shorter one shows "No Job Description Available"), so
      from there the missing-input error can only mean a missing resume. */
  lemma ShownGeneratorNeedsOnlyResume(resume: Option<Resume>, jd: string)
    requires !ResumeEditor.ShowsNoJobView(jd)
    ensures StartGeneration(resume, jd).Failure? <==> resume.None?
    ensures resume.Some? ==> StartGeneration(resume, jd) == Success(LetterRequest(resume.value, jd))
  {
  }
}

=== FILE: job_description.dfy ===
/** The job-description view: pulling a title, a company and a location out
    of the text with ordered pattern lists, and saving or cancelling an
    edit. */
module JobDescription {
  import opened Common
  import opened Text

  // ----- the label patterns `label:?\s*([^\n]+)` with the i flag -----

  /** First newline at or after k, or the end of the text: where a greedy
      `[^\n]+` stops. */
  function LineEnd(text: string, k: nat): (e: nat)
    requires k <= |text|
    ensures k <= e <= |text|
    ensures e == |text| || text[e] == '\n'
    ensures forall j :: k <= j < e ==> text[j] != '\n'
  {
    var nl := (j: nat) => j < |text| && text[j] == '\n';
    assert forall j :: k <= j < |text| ==> (nl(j) <==> text[j] == '\n');
    FindFirst(k, |text|, nl).GetOr(|text|)
  }

  /** Where `\s*([^\n]+)` starting at r puts the capture: \s* first takes
      the whole whitespace run up to e, then gives characters back until a
      non-newline character can start the capture.  None when even giving
      everything back finds none. */
  function CaptureStart(text: string, r: nat): (k: Option<nat>)
    requires r <= |text|
    ensures k.Some? ==> r <= k.value < |text| && text[k.value] != '\n'
    ensures k.Some? ==> k.value <= SpaceRunEnd(text, r)
    ensures k.Some? ==> forall j :: k.value < j <= SpaceRunEnd(text, r) && j < |text| ==> text[j] == '\n'
    ensures k.None? ==> forall j :: r <= j <= SpaceRunEnd(text, r) && j < |text| ==> text[j] == '\n'
  {
    var e := SpaceRunEnd(text, r);
    var hi := if e < |text| then e + 1 else |text|;
    var ok := (j: nat) => j < |text| && text[j] != '\n';
    assert forall j :: r <= j < hi ==> (ok(j) <==> text[j] != '\n');
    FindLast(r, hi, ok)
  }

  /** Where the capture starts if the pattern for the label `word` matches at p.  An
      optional colon is taken first; if no capture can follow it, the
      colon is left for the capture itself. */
  function LabelCaptureAt(text: string, p: nat, word: string): (k: Option<nat>)
    ensures k.Some? ==> MatchesAt(text, p, word)
    ensures k.Some? ==> p + |word| <= k.value < |text| && text[k.value] != '\n'
    ensures MatchesAt(text, p, word) && p + |word| < |text| && text[p + |word|] == ':' ==> k.Some?
    ensures var q := p + |word|;
      MatchesAt(text, p, word) && q < |text| && text[q] == ':' && CaptureStart(text, q + 1).Some? ==>
      k == CaptureStart(text, q + 1) && k.value > q
    ensures var q := p + |word|;
      MatchesAt(text, p, word) && !(q < |text| && text[q] == ':') ==> k == CaptureStart(text, q)
  {
    if !MatchesAt(text, p, word) then None
    else
      var q := p + |word|;
      if q < |text| && text[q] == ':' then
        match CaptureStart(text, q + 1)
        case Some(k) => Some(k)
        case None => CaptureStart(text, q)
      else CaptureStart(text, q)
  }

  /** The leftmost position where the whole pattern for `word` matches:
      a search tries every start position in turn. */
  function LabelMatchStart(text: string, word: string): (p: Option<nat>)
    ensures p.Some? ==> p.value < |text| && LabelCaptureAt(text, p.value, word).Some?
    ensures p.Some? ==> forall q :: 0 <= q < p.value ==> LabelCaptureAt(text, q, word).None?
    ensures p.None? ==> forall q :: 0 <= q < |text| ==> LabelCaptureAt(text, q, word).None?
  {
    var at := (q: nat) => LabelCaptureAt(text, q, word).Some?;
    assert forall q :: 0 <= q < |text| ==> (at(q) <==> LabelCaptureAt(text, q, word).Some?);
    FindFirst(0, |text|, at)
  }

  /** `text.match(/label:?\s*([^\n]+)/i)[1]`: the rest of the line from
      the capture start of the leftmost match. */
  function LabelMatch(text: string, word: string): (c: Option<string>)
    ensures c.Some? <==> LabelMatchStart(text, word).Some?
    ensures c.Some? ==> c.value != ""
  {
    match LabelMatchStart(text, word)
    case None => None
    case Some(p) =>
      var k := LabelCaptureAt(text, p, word).value;
      Some(text[k..LineEnd(text, k)])
  }

  /** The capture is the text from the capture start of the leftmost
      match to the end of that line. */
  lemma LabelMatchShape(text: string, word: string)
    requires LabelMatch(text, word).Some?
    ensures var c := LabelMatch(text, word).value;
      var k := LabelCaptureAt(text, LabelMatchStart(text, word).value, word).value;
      '\n' !in c && OccursAt(text, k, c) && (k + |c| == |text| || text[k + |c|] == '\n')
  {
    var p := LabelMatchStart(text, word).value;
    var k := LabelCaptureAt(text, p, word).value;
    var c := LabelMatch(text, word).value;
    assert c == text[k..LineEnd(text, k)];
    assert OccursAt(text, k, c);
  }

  const TitleLine: string := "Job Title: Engineer"

  lemma TitleLineMatchesAtStart()
    ensures LabelMatchStart(TitleLine, "job title") == Some(0)
  {
    assert MatchesAt(TitleLine, 0, "job title");
    assert TitleLine[9] == ':';
  }

  lemma TitleLineCaptureStart()
    ensures LabelCaptureAt(TitleLine, 0, "job title") == Some(11)
  {
    var t := TitleLine;
    assert MatchesAt(t, 0, "job title");
    assert t[9] == ':' && IsSpace(t[10]) && !IsSpace(t[11]);
    assert SpaceRunEnd(t, 10) == 11;
    assert CaptureStart(t, 10) == Some(11);
  }

  /** The colon is taken by `:?` and the space by `\s*`, so neither ends
      up in the capture. */
  lemma JobTitleExample()
    ensures LabelMatch(TitleLine, "job title") == Some("Engineer")
  {
    TitleLineMatchesAtStart();
    TitleLineCaptureStart();
    assert '\n' !in TitleLine;
    assert LineEnd(TitleLine, 11) == |TitleLine|;
    assert LabelMatch(TitleLine, "job title") == Some(TitleLine[11..|TitleLine|]);
    assert TitleLine[11..|TitleLine|] == "Engineer";
  }

  // ----- ordered pattern lists -----

  /** A label pattern modelled exactly, or a regular expression modelled
      only by what it captures (`at\s+…` and `in\s+…`, which are case
      sensitive and rely on character classes left abstract). */
  datatype Pattern = Label(word: string) | Opaque(capture: string -> Option<string>)

  /** `match && match[1]`, as a string or None. */
  function Capture(p: Pattern, text: string): Option<string> {
    match p
    case Label(l) => LabelMatch(text, l)
    case Opaque(f) => f(text)
  }

  /** The pattern matched and captured something non-empty. */
  predicate Hits(p: Pattern, text: string) {
    var c := Capture(p, text); c.Some? && c.value != ""
  }

  /** Index of the first pattern in list order that hits. */
  function FirstHit(patterns: seq<Pattern>, text: string): (i: Option<nat>)
    ensures i.Some? ==> i.value < |patterns| && Hits(patterns[i.value], text)
    ensures i.Some? ==> forall j :: 0 <= j < i.value ==> !Hits(patterns[j], text)
    ensures i.None? ==> forall j :: 0 <= j < |patterns| ==> !Hits(patterns[j], text)
  {
    var hit := (i: nat) => i < |patterns| && Hits(patterns[i], text);
    assert forall i :: 0 <= i < |patterns| ==> (hit(i) <==> Hits(patterns[i], text));
    FindFirst(0, |patterns|, hit)
  }

  /** The loop `for (const pattern of patterns) { … break; }`: the first
      pattern in list order that hits gives the value, trimmed. */
  function FirstMatch(patterns: seq<Pattern>, text: string): (r: Option<string>)
    ensures r.Some? <==> exists i :: 0 <= i < |patterns| && Hits(patterns[i], text)
    ensures r.Some? ==> IsTrimmed(r.value)
    ensures r.Some? ==> exists i :: (0 <= i < |patterns| && Hits(patterns[i], text) &&
      (forall j :: 0 <= j < i ==> !Hits(patterns[j], text)) &&
      r.value == Trim(Capture(patterns[i], text).value))
  {
    match FirstHit(patterns, text)
    case None => None
    case Some(i) => Some(Trim(Capture(patterns[i], text).value))
  }

  /** Patterns after the first one that hits are never consulted. */
  lemma FirstMatchIgnoresLater(patterns: seq<Pattern>, more: seq<Pattern>, text: string)
    requires exists i :: 0 <= i < |patterns| && Hits(patterns[i], text)
    ensures FirstMatch(patterns + more, text) == FirstMatch(patterns, text)
  {
    var all := patterns + more;
    var a := FirstHit(all, text);
    var b := FirstHit(patterns, text);
    assert b.Some?;
    assert all[b.value] == patterns[b.value];
    assert a.Some?;
    assert a.value <= b.value;
    assert a.value < |patterns| ==> all[a.value] == patterns[a.value];
    assert b.value <= a.value;
    assert all[a.value] == patterns[a.value];
  }

  /** A label pattern always captures something non-empty when it matches,
      so its hit is decided by the label search alone. */
  lemma LabelHits(word: string, text: string)
    ensures Hits(Label(word), text) <==> LabelMatch(text, word).Some?
  {
  }

  // ----- extractJobInfo -----

  datatype JobInfo = JobInfo(
    title: Option<string>,
    company: Option<string>,
    location: Option<string>,
    seniority: Option<string>)

  const TitlePatterns: seq<Pattern> := [Label("job title"), Label("position"), Label("role")]

  function CompanyPatterns(atCompany: string -> Option<string>): seq<Pattern> {
    [Label("company"), Opaque(atCompany)]
  }

  function LocationPatterns(inLocation: string -> Option<string>): seq<Pattern> {
    [Label("location"), Opaque(inLocation)]
  }

  /** Each field comes from its own ordered list; a field no pattern hits
      stays None, and seniority is never filled in. */
  function ExtractJobInfo(jd: string, atCompany: string -> Option<string>,
                          inLocation: string -> Option<string>): (info: JobInfo)
    ensures info.seniority.None?
    ensures info.title == FirstMatch(TitlePatterns, jd)
    ensures info.company == FirstMatch(CompanyPatterns(atCompany), jd)
    ensures info.location == FirstMatch(LocationPatterns(inLocation), jd)
    ensures info.title.Some? <==> exists i :: 0 <= i < 3 && Hits(TitlePatterns[i], jd)
    ensures info.company.Some? <==> Hits(Label("company"), jd) || Hits(Opaque(atCompany), jd)
    ensures info.location.Some? <==> Hits(Label("location"), jd) || Hits(Opaque(inLocation), jd)
    ensures info.title.Some? ==> IsTrimmed(info.title.value)
    ensures info.company.Some? ==> IsTrimmed(info.company.value)
    ensures info.location.Some? ==> IsTrimmed(info.location.value)
  {
    var cs := CompanyPatterns(atCompany);
    var ls := LocationPatterns(inLocation);
    assert (exists i :: 0 <= i < |cs| && Hits(cs[i], jd)) <==> Hits(cs[0], jd) || Hits(cs[1], jd);
    assert (exists i :: 0 <= i < |ls| && Hits(ls[i], jd)) <==> Hits(ls[0], jd) || Hits(ls[1], jd);
    JobInfo(FirstMatch(TitlePatterns, jd), FirstMatch(cs, jd), FirstMatch(ls, jd), None)
  }

  /** An explicit "Company:" line wins over the `at …` pattern, whatever
      that pattern would find. */
  lemma CompanyLabelWins(jd: string, atCompany: string -> Option<string>)
    requires LabelMatch(jd, "company").Some?
    ensures ExtractJobInfo(jd, atCompany, _ => None).company == Some(Trim(LabelMatch(jd, "company").value))
  {
    LabelHits("company", jd);
  }

  /** `jobDescription ? extractJobInfo(jobDescription) : null` */
  function ExtractedInfo(jd: string, atCompany: string -> Option<string>,
                         inLocation: string -> Option<string>): (r: Option<JobInfo>)
    ensures r.None? <==> jd == ""
    ensures r.Some? ==> r.value.seniority.None?
  {
    if jd == "" then None else Some(ExtractJobInfo(jd, atCompany, inLocation))
  }

  // ----- editing -----

  /** The job description the app holds, whether the text box is open, and
      the text in it.  The box starts with the job description the view
      was first shown with. */
  datatype JdView = JdView(jobDescription: string, editing: bool, draft: string)

  function Open(v: JdView): JdView { v.(editing := true) }

  function Type(v: JdView, t: string): JdView { v.(draft := t) }

  /** Save hands the box's text, unchanged, to the app and closes the box. */
  function Save(v: JdView): (w: JdView)
    ensures w.jobDescription == v.draft && !w.editing && w.draft == v.draft
  {
    v.(jobDescription := v.draft, editing := false)
  }

  /** Cancel closes the box and leaves the job description alone. */
  function Cancel(v: JdView): (w: JdView)
    ensures w.jobDescription == v.jobDescription && !w.editing && w.draft == v.draft
  {
    v.(editing := false)
  }

  /** Cancelling does not throw the typed text away: reopening the box
      shows it again, and saving then stores it. */
  lemma CancelKeepsDraft(v: JdView, t: string)
    ensures Cancel(Type(Open(v), t)).jobDescription == v.jobDescription
    ensures Open(Cancel(Type(Open(v), t))).draft == t
    ensures Save(Open(Cancel(Type(Open(v), t)))).jobDescription == t
  {
  }
}

=== FILE: records.dfy ===
/** The records the extension keeps in browser storage and passes between
    its views: the resume, the contact profile, the settings, and the
    tailoring suggestions a model provider sends back. */
module Records {
  import opened Common

  /** One job held; `id` is what every edit looks entries up by. */
  datatype Experience = Experience(
    id: string,
    role: string,
    company: string,
    location: string,
    startDate: string,
    endDate: string,
    bullets: seq<string>)

  datatype Profile = Profile(
    name: string,
    email: string,
    phone: string,
    location: string,
    links: seq<string>)

  /** Projects and education are stored and sent along but never edited or
      inspected, so their entries are kept as opaque text. */
  datatype Resume = Resume(
    summary: string,
    skills: seq<string>,
    experience: seq<Experience>,
    projects: seq<string>,
    education: seq<string>)

  /** `privacyMode` is 'local' or 'anonymous'; `apiKeys` maps a provider
      name to the key typed for it. */
  datatype Settings = Settings(
    privacyMode: string,
    selectedModelProvider: string,
    apiKeys: map<string, string>)

  /** A provider's advice about one experience entry.  `relevance` is a
      JSON number, so it may have a fractional part. */
  datatype ExperienceSuggestion = ExperienceSuggestion(
    experienceId: string,
    relevance: real,
    reason: string,
    suggestedBullets: seq<string>,
    suggestedSkills: seq<string>)

  /** A tailoring reply; `experienceSuggestions` may be absent. */
  datatype Tailoring = Tailoring(
    relevantSkills: seq<string>,
    experienceSuggestions: Option<seq<ExperienceSuggestion>>)

  const EmptyProfile: Profile := Profile("", "", "", "", [])

  const EmptyResume: Resume := Resume("", [], [], [], [])
}

=== FILE: resume_editor.dfy ===
/** The tailoring view: applying a suggested bullet, merging suggested
    skills into the resume, copying every suggested bullet at once, the
    relevance stars, and the job-description length guards. */
module ResumeEditor {
  import opened Common
  import opened Text
  import opened Records

  // ----- applying a suggested bullet -----

  /** `experience.findIndex(exp => exp.id === id)`, -1 being None. */
  function FindExperience(xs: seq<Experience>, id: string): (r: Option<nat>)
    ensures r.Some? ==> r.value < |xs| && xs[r.value].id == id
    ensures r.Some? ==> forall j :: 0 <= j < r.value ==> xs[j].id != id
    ensures r.None? ==> forall j :: 0 <= j < |xs| ==> xs[j].id != id
  {
    var has := (j: nat) => j < |xs| && xs[j].id == id;
    assert forall j :: 0 <= j < |xs| ==> (has(j) <==> xs[j].id == id);
    FindFirst(0, |xs|, has)
  }

  /** The updated resume, or None when no entry has the id: then nothing
      is passed on and nothing is stored. */
  function ApplySuggestion(r: Resume, id: string, bullet: string): (u: Option<Resume>)
    ensures u.None? <==> forall j :: 0 <= j < |r.experience| ==> r.experience[j].id != id
    ensures u.Some? ==> |u.value.experience| == |r.experience|
    ensures u.Some? ==> exists i ::
      0 <= i < |r.experience| && r.experience[i].id == id &&
      (forall j :: 0 <= j < i ==> r.experience[j].id != id) &&
      u.value.experience[i].bullets == [bullet] + r.experience[i].bullets &&
      u.value.experience[i].(bullets := r.experience[i].bullets) == r.experience[i] &&
      forall j :: 0 <= j < |r.experience| && j != i ==> u.value.experience[j] == r.experience[j]
    ensures u.Some? ==> u.value == r.(experience := u.value.experience)
  {
    match FindExperience(r.experience, id)
    case None => None
    case Some(i) =>
      var e := r.experience[i];
      var xs := r.experience[i := e.(bullets := [bullet] + e.bullets)];
      assert xs[i].(bullets := e.bullets) == e;
      Some(r.(experience := xs))
  }

  // ----- merging skills -----

  predicate NoDuplicates(s: seq<string>) {
    forall i, j :: 0 <= i < j < |s| ==> s[i] != s[j]
  }

  /** The distinct elements of s, each at its first occurrence: the order in
      which a JavaScript Set built from s yields them. */
  function Dedup(s: seq<string>): (r: seq<string>)
    ensures forall x :: x in r <==> x in s
  {
    if |s| == 0 then []
    else
      var d := Dedup(s[..|s| - 1]);
      var x := s[|s| - 1];
      if x in d then d else d + [x]
  }

  /** Dedup leaves no element twice. */
  lemma {:induction false} DedupNoDuplicates(s: seq<string>)
    ensures NoDuplicates(Dedup(s))
  {
    if |s| > 0 {
      DedupNoDuplicates(s[..|s| - 1]);
    }
  }

  /** Index of the first occurrence of x in s. */
  function IndexOf(s: seq<string>, x: string): (i: nat)
    requires x in s
    ensures i < |s| && s[i] == x && x !in s[..i]
  {
    if s[0] == x then 0 else 1 + IndexOf(s[1..], x)
  }

  lemma {:induction false} IndexOfPrefix(s: seq<string>, t: seq<string>, x: string)
    requires x in s
    ensures IndexOf(s + t, x) == IndexOf(s, x)
  {
    if s[0] != x {
      assert (s + t)[1..] == s[1..] + t;
      IndexOfPrefix(s[1..], t, x);
    }
  }

  /** Dedup keeps the elements in the order of their first occurrence. */
  lemma {:induction false} DedupFirstOccurrenceOrder(s: seq<string>)
    ensures forall i, j :: 0 <= i < j < |Dedup(s)| ==>
      IndexOf(s, Dedup(s)[i]) < IndexOf(s, Dedup(s)[j])
  {
    if |s| > 0 {
      var p := s[..|s| - 1];
      var x := s[|s| - 1];
      var d := Dedup(p);
      DedupFirstOccurrenceOrder(p);
      assert s == p + [x];
      forall y | y in d ensures IndexOf(s, y) == IndexOf(p, y) {
        IndexOfPrefix(p, [x], y);
      }
      if x !in d {
        assert x !in p;
        assert IndexOf(s, x) == |p| by {
          assert s[..|p|] == p;
        }
      }
    }
  }

  /** A list without repeats is its own Dedup. */
  lemma {:induction false} DedupDistinct(s: seq<string>)
    requires NoDuplicates(s)
    ensures Dedup(s) == s
  {
    if |s| > 0 {
      var p := s[..|s| - 1];
      DedupDistinct(p);
      assert s == p + [s[|s| - 1]];
    }
  }

  /** The elements of b that a does not contain, in b's order. */
  function Unseen(b: seq<string>, a: seq<string>): (r: seq<string>)
    ensures forall x :: x in r <==> x in b && x !in a
  {
    if |b| == 0 then []
    else
      var u := Unseen(b[..|b| - 1], a);
      if b[|b| - 1] in a then u else u + [b[|b| - 1]]
  }

  lemma DedupSnocSeen(s: seq<string>, x: string)
    requires x in s
    ensures Dedup(s + [x]) == Dedup(s)
  {
    assert (s + [x])[..|s|] == s;
  }

  lemma DedupSnocNew(s: seq<string>, x: string)
    requires x !in s
    ensures Dedup(s + [x]) == Dedup(s) + [x]
  {
    assert (s + [x])[..|s|] == s;
  }

  lemma UnseenSnoc(b: seq<string>, x: string, a: seq<string>)
    ensures x in a ==> Unseen(b + [x], a) == Unseen(b, a)
    ensures x !in a ==> Unseen(b + [x], a) == Unseen(b, a) + [x]
  {
    assert (b + [x])[..|b|] == b;
  }

  /** One more element of b, given the statement for the shorter b. */
  lemma DedupAppendStep(a: seq<string>, p: seq<string>, x: string)
    requires Dedup(a + p) == Dedup(a) + Dedup(Unseen(p, a))
    ensures Dedup(a + (p + [x])) == Dedup(a) + Dedup(Unseen(p + [x], a))
  {
    var u := Unseen(p, a);
    var ap := a + p;
    assert a + (p + [x]) == ap + [x];
    UnseenSnoc(p, x, a);
    if x in a {
      assert x in ap;
      DedupSnocSeen(ap, x);
    } else if x in p {
      assert x in ap;
      DedupSnocSeen(ap, x);
      assert x in u;
      DedupSnocSeen(u, x);
    } else {
      assert x !in ap;
      DedupSnocNew(ap, x);
      assert x !in u;
      DedupSnocNew(u, x);
      ConcatAssoc(Dedup(a), Dedup(u), [x]);
    }
  }

  /** Deduplicating a + b keeps a's distinct elements first, then the new
      elements of b in the order they first appear. */
  lemma {:induction false} DedupAppend(a: seq<string>, b: seq<string>)
    ensures Dedup(a + b) == Dedup(a) + Dedup(Unseen(b, a))
  {
    if |b| == 0 {
      assert a + b == a;
    } else {
      var p := b[..|b| - 1];
      assert b == p + [b[|b| - 1]];
      DedupAppend(a, p);
      DedupAppendStep(a, p, b[|b| - 1]);
    }
  }

  /** The loop of the source: start a Set from the existing skills, add each
      new one, read it back with Array.from. */
  method SetInsertionOrder(existing: seq<string>, added: seq<string>) returns (out: seq<string>)
    ensures out == Dedup(existing + added)
  {
    var all := existing + added;
    var seen: set<string> := {};
    out := [];
    var i := 0;
    while i < |all|
      invariant 0 <= i <= |all|
      invariant out == Dedup(all[..i])
      invariant forall x :: x in seen <==> x in out
    {
      assert all[..i + 1][..i] == all[..i];
      if all[i] !in seen {
        out := out + [all[i]];
        seen := seen + {all[i]};
      }
      i := i + 1;
    }
    assert all[..|all|] == all;
  }

  /** A missing or empty list changes nothing and stores nothing (None). */
  function AddSkills(r: Resume, skills: Option<seq<string>>): (u: Option<Resume>)
    ensures u.None? <==> skills.None? || skills.value == []
    ensures u.Some? ==> u.value == r.(skills := u.value.skills)
    ensures u.Some? ==> NoDuplicates(u.value.skills)
    ensures u.Some? ==> forall x :: x in u.value.skills <==> x in r.skills || x in skills.value
  {
    match skills
    case None => None
    case Some(s) =>
      if s == [] then None
      else
        DedupNoDuplicates(r.skills + s);
        Some(r.(skills := Dedup(r.skills + s)))
  }

  /** The skills already present come first, in their order, then the
      genuinely new ones in the order they first appear. */
  lemma AddSkillsOrder(r: Resume, skills: seq<string>)
    requires skills != []
    ensures AddSkills(r, Some(skills)).value.skills == Dedup(r.skills) + Dedup(Unseen(skills, r.skills))
    ensures NoDuplicates(r.skills) ==>
      AddSkills(r, Some(skills)).value.skills == r.skills + Dedup(Unseen(skills, r.skills))
  {
    DedupAppend(r.skills, skills);
    if NoDuplicates(r.skills) {
      DedupDistinct(r.skills);
    }
  }

  // ----- copying every suggested bullet -----

  /** `experienceSuggestions.flatMap(exp => exp.suggestedBullets)` */
  function AllBullets(ss: seq<ExperienceSuggestion>): seq<string> {
    if |ss| == 0 then [] else ss[0].suggestedBullets + AllBullets(ss[1..])
  }

  /** Number of bullets of the suggestions before index i. */
  function BulletsBefore(ss: seq<ExperienceSuggestion>, i: nat): nat
    requires i <= |ss|
  {
    if i == 0 then 0 else BulletsBefore(ss, i - 1) + |ss[i - 1].suggestedBullets|
  }

  lemma {:induction false} AllBulletsAppend(a: seq<ExperienceSuggestion>, b: seq<ExperienceSuggestion>)
    ensures AllBullets(a + b) == AllBullets(a) + AllBullets(b)
  {
    if |a| == 0 {
      assert a + b == b;
    } else {
      assert (a + b)[1..] == a[1..] + b;
      AllBulletsAppend(a[1..], b);
    }
  }

  /** Bullet k of suggestion i sits right after the bullets of the earlier
      suggestions: the flattening keeps experience order and bullet order. */
  lemma {:induction false} AllBulletsPosition(ss: seq<ExperienceSuggestion>, i: nat, k: nat)
    requires i < |ss| && k < |ss[i].suggestedBullets|
    ensures BulletsBefore(ss, i) + k < |AllBullets(ss)|
    ensures AllBullets(ss)[BulletsBefore(ss, i) + k] == ss[i].suggestedBullets[k]
  {
    var front := ss[..i];
    AllBulletsAppend(front, ss[i..]);
    assert ss == front + ss[i..];
    BulletsBeforeIsLength(ss, i);
    assert ss[i..] == [ss[i]] + ss[i + 1..];
    assert AllBullets(ss[i..]) == ss[i].suggestedBullets + AllBullets(ss[i + 1..]);
  }

  lemma {:induction false} BulletsBeforeIsLength(ss: seq<ExperienceSuggestion>, i: nat)
    requires i <= |ss|
    ensures BulletsBefore(ss, i) == |AllBullets(ss[..i])|
  {
    if i > 0 {
      BulletsBeforeIsLength(ss, i - 1);
      assert ss[..i] == ss[..i - 1] + [ss[i - 1]];
      AllBulletsAppend(ss[..i - 1], [ss[i - 1]]);
      assert [ss[i - 1]][1..] == [];
    }
  }

  const CopySeparator: string := "\n\n"

  /** What "Copy All Suggestions" puts on the clipboard; None when there is
      nothing to copy from (no reply, or a reply without suggestions).  An
      empty suggestion list still copies the empty string. */
  function CopiedText(t: Option<Tailoring>): (r: Option<string>)
    ensures r.None? <==> t.None? || t.value.experienceSuggestions.None?
    ensures (t.Some? && t.value.experienceSuggestions.Some? &&
             AllBullets(t.value.experienceSuggestions.value) == []) ==> r == Some("")
  {
    match t
    case None => None
    case Some(tl) =>
      match tl.experienceSuggestions
      case None => None
      case Some(ss) => Some(Join(CopySeparator, AllBullets(ss)))
  }

  /** A single suggested bullet is copied verbatim. */
  lemma CopiedTextSingle(ss: seq<ExperienceSuggestion>, skills: seq<string>)
    requires |AllBullets(ss)| == 1
    ensures CopiedText(Some(Tailoring(skills, Some(ss)))) == Some(AllBullets(ss)[0])
  {
  }

  /** The clipboard text of two groups of suggestions is the text of the
      first group, a blank line, and the text of the second. */
  lemma CopiedTextSplits(a: seq<ExperienceSuggestion>, b: seq<ExperienceSuggestion>, skills: seq<string>)
    requires AllBullets(a) != [] && AllBullets(b) != []
    ensures CopiedText(Some(Tailoring(skills, Some(a + b)))).value ==
      CopiedText(Some(Tailoring(skills, Some(a)))).value + CopySeparator +
      CopiedText(Some(Tailoring(skills, Some(b)))).value
  {
    AllBulletsAppend(a, b);
    JoinAppend(CopySeparator, AllBullets(a), AllBullets(b));
  }

  /** The copied text depends only on the flattened bullet list: how the
      bullets are grouped into suggestions makes no difference. */
  lemma CopiedTextDependsOnBullets(a: seq<ExperienceSuggestion>, b: seq<ExperienceSuggestion>, skills: seq<string>)
    requires AllBullets(a) == AllBullets(b)
    ensures CopiedText(Some(Tailoring(skills, Some(a)))) == CopiedText(Some(Tailoring(skills, Some(b))))
  {
  }

  /** Every two adjacent bullets, within one suggestion or across two, are
      separated by exactly one blank line. */
  lemma CopiedTextSplitsAt(ss: seq<ExperienceSuggestion>, skills: seq<string>, k: nat)
    requires 0 < k < |AllBullets(ss)|
    ensures CopiedText(Some(Tailoring(skills, Some(ss)))).value ==
      Join(CopySeparator, AllBullets(ss)[..k]) + CopySeparator + Join(CopySeparator, AllBullets(ss)[k..])
  {
    var bs := AllBullets(ss);
    assert bs == bs[..k] + bs[k..];
    JoinAppend(CopySeparator, bs[..k], bs[k..]);
  }

  // ----- relevance stars -----

  /** Star i of three is filled when i < relevance. */
  function Stars(relevance: real): seq<bool> {
    [0.0 < relevance, 1.0 < relevance, 2.0 < relevance]
  }

  function CountFilled(s: seq<bool>): nat {
    if |s| == 0 then 0 else (if s[0] then 1 else 0) + CountFilled(s[1..])
  }

  /** The least integer not below r. */
  function Ceiling(r: real): (c: int)
    ensures c as real - 1.0 < r <= c as real
  {
    -((-r).Floor)
  }

  /** The number of filled stars is relevance rounded up and clamped into
      0..3 (a fractional relevance such as 1.5 fills two stars), and the
      filled stars come first. */
  lemma StarsClamp(relevance: real)
    ensures CountFilled(Stars(relevance)) ==
      if relevance <= 0.0 then 0 else if relevance > 2.0 then 3 else Ceiling(relevance)
    ensures forall i, j :: 0 <= i < j < 3 && Stars(relevance)[j] ==> Stars(relevance)[i]
  {
    var s := Stars(relevance);
    assert CountFilled(s[1..][1..][1..]) == 0;
    assert CountFilled(s[1..][1..]) == if 2.0 < relevance then 1 else 0;
    assert CountFilled(s[1..]) == CountFilled(s[1..][1..]) + if 1.0 < relevance then 1 else 0;
  }

  // ----- job-description guards -----

  /** Suggestions are fetched automatically only for a resume and a job
      description longer than 50 characters. */
  predicate FetchesAutomatically(resume: Option<Resume>, jd: string) {
    resume.Some? && jd != "" && |jd| > 50
  }

  /** The "No Job Description Available" view replaces the editor. */
  predicate ShowsNoJobView(jd: string) {
    jd == "" || |jd| < 50
  }

  /** The two guards never clash, and they leave a gap: a job description
      of exactly 50 characters shows the editor without fetching. */
  lemma GuardsAgree(resume: Option<Resume>, jd: string)
    ensures FetchesAutomatically(resume, jd) ==> !ShowsNoJobView(jd)
    ensures |jd| == 50 ==> !ShowsNoJobView(jd) && !FetchesAutomatically(resume, jd)
  {
  }
}

=== FILE: resume_parser.dfy ===
/** Section extraction from plain resume text: each section is found by a
    regular expression `(?:h1|h2|…)(.+?)(?=s1|s2|…|$)` with the i and s
    flags, modelled exactly as a search over ASCII case-folded text. */
module ResumeParser {
  import opened Common
  import opened Text

  /** Header h matches at p and leaves at least one character for the lazy
      `(.+?)` (the s flag lets it be any character, newlines included). */
  predicate Opens(text: string, p: nat, h: string) {
    MatchesAt(text, p, h) && p + |h| < |text|
  }

  /** At one position the alternatives are tried in the order listed: the
      index of the first that opens a section there. */
  function HeaderAt(text: string, p: nat, headers: seq<string>): (i: Option<nat>)
    ensures i.Some? ==> i.value < |headers| && Opens(text, p, headers[i.value])
    ensures i.Some? ==> forall j :: 0 <= j < i.value ==> !Opens(text, p, headers[j])
    ensures i.None? ==> forall j :: 0 <= j < |headers| ==> !Opens(text, p, headers[j])
  {
    var opens := (j: nat) => j < |headers| && Opens(text, p, headers[j]);
    assert forall j :: 0 <= j < |headers| ==> (opens(j) <==> Opens(text, p, headers[j]));
    FindFirst(0, |headers|, opens)
  }

  /** The leftmost position where some header opens a section. */
  function HeaderPosition(text: string, headers: seq<string>): (p: Option<nat>)
    ensures p.Some? ==> p.value < |text| && HeaderAt(text, p.value, headers).Some?
    ensures p.Some? ==> forall q :: 0 <= q < p.value ==> HeaderAt(text, q, headers).None?
    ensures p.None? ==> forall q :: 0 <= q < |text| ==> HeaderAt(text, q, headers).None?
  {
    var at := (q: nat) => HeaderAt(text, q, headers).Some?;
    assert forall q :: 0 <= q < |text| ==> (at(q) <==> HeaderAt(text, q, headers).Some?);
    FindFirst(0, |text|, at)
  }

  /** The captured `(.+?)`: from just after the header up to the first
      later position where a stop word begins, or the end of the text. */
  datatype Span = Span(start: nat, end: nat)

  function SectionSpan(text: string, headers: seq<string>, stops: seq<string>): (s: Option<Span>)
    ensures s.Some? <==> HeaderPosition(text, headers).Some?
    ensures s.Some? ==> s.value.start < s.value.end <= |text|
    ensures s.Some? ==>
      var p := HeaderPosition(text, headers).value;
      s.value.start == p + |headers[HeaderAt(text, p, headers).value]|
    ensures s.Some? ==> forall k :: s.value.start < k < s.value.end ==> !AnyMatchesAt(text, k, stops)
    ensures s.Some? ==> s.value.end == |text| || AnyMatchesAt(text, s.value.end, stops)
  {
    match HeaderPosition(text, headers)
    case None => None
    case Some(p) =>
      var start := p + |headers[HeaderAt(text, p, headers).value]|;
      Some(Span(start, NextStop(text, stops, start + 1)))
  }

  /** `match ? match[1].trim() : ''` */
  function Section(text: string, headers: seq<string>, stops: seq<string>): (r: string)
    ensures IsTrimmed(r)
    ensures SectionSpan(text, headers, stops).None? ==> r == ""
  {
    match SectionSpan(text, headers, stops)
    case None => ""
    case Some(sp) => Trim(text[sp.start..sp.end])
  }

  lemma SliceTrimOccurs(text: string, a: nat, b: nat)
    requires a <= b <= |text|
    ensures OccursAt(text, a + TrimOffset(text[a..b]), Trim(text[a..b]))
  {
    var body := text[a..b];
    assert OccursAt(text, a, body);
    TrimOccurs(body);
    OccursWithin(text, a, body, TrimOffset(body), Trim(body));
  }

  /** Inside text[a..b], the trimmed slice has only whitespace before and
      after it. */
  lemma SliceTrimPadding(text: string, a: nat, b: nat)
    requires a <= b <= |text|
    ensures var k, r := a + TrimOffset(text[a..b]), Trim(text[a..b]);
      k + |r| <= b &&
      (forall j :: a <= j < k ==> IsSpace(text[j])) &&
      (forall j :: k + |r| <= j < b ==> IsSpace(text[j]))
  {
    var body := text[a..b];
    TrimShape(body);
    assert forall j :: a <= j < b ==> text[j] == body[j - a];
  }

  /** A section is a piece of the text itself: the part of the captured
      span left after dropping the whitespace at both of its ends. */
  lemma SectionIsSubstring(text: string, headers: seq<string>, stops: seq<string>) returns (k: nat)
    ensures OccursAt(text, k, Section(text, headers, stops))
    ensures SectionSpan(text, headers, stops).Some? ==>
      var sp, r := SectionSpan(text, headers, stops).value, Section(text, headers, stops);
      sp.start <= k && k + |r| <= sp.end &&
      (forall j :: sp.start <= j < k ==> IsSpace(text[j])) &&
      (forall j :: k + |r| <= j < sp.end ==> IsSpace(text[j]))
  {
    if SectionSpan(text, headers, stops).None? {
      assert text[0..0] == Section(text, headers, stops);
      k := 0;
    } else {
      k := SectionInSpan(text, headers, stops);
    }
  }

  lemma SectionInSpan(text: string, headers: seq<string>, stops: seq<string>) returns (k: nat)
    requires SectionSpan(text, headers, stops).Some?
    ensures var sp, r := SectionSpan(text, headers, stops).value, Section(text, headers, stops);
      OccursAt(text, k, r) && sp.start <= k && k + |r| <= sp.end &&
      (forall j :: sp.start <= j < k ==> IsSpace(text[j])) &&
      (forall j :: k + |r| <= j < sp.end ==> IsSpace(text[j]))
  {
    var sp := SectionSpan(text, headers, stops).value;
    var a, b := sp.start, sp.end;
    assert Section(text, headers, stops) == Trim(text[a..b]);
    SliceTrimOccurs(text, a, b);
    SliceTrimPadding(text, a, b);
    k := a + TrimOffset(text[a..b]);
  }

  /** Conversely, a trimmed piece of the span with only whitespace around
      it inside the span is the section: nothing else qualifies. */
  lemma SectionUnique(text: string, headers: seq<string>, stops: seq<string>, k: nat, r: string)
    requires SectionSpan(text, headers, stops).Some?
    requires var sp := SectionSpan(text, headers, stops).value;
      sp.start <= k && k + |r| <= sp.end && OccursAt(text, k, r) && IsTrimmed(r) &&
      (forall j :: sp.start <= j < k ==> IsSpace(text[j])) &&
      (forall j :: k + |r| <= j < sp.end ==> IsSpace(text[j]))
    ensures r == Section(text, headers, stops)
  {
    var sp := SectionSpan(text, headers, stops).value;
    var a, b := sp.start, sp.end;
    var m := k + |r|;
    SliceAllSpace(text, a, k);
    SliceAllSpace(text, m, b);
    SliceThree(text, a, k, m, b);
    assert text[k..m] == r;
    TrimPadded(text[a..k], r, text[m..b]);
  }

  // ----- the five sections -----

  const SummaryHeaders: seq<string> := ["summary", "profile", "objective", "about me"]
  const SummaryStops: seq<string> := ["skills", "experience", "education", "projects"]
  const SkillsHeaders: seq<string> := ["skills"]
  const SkillsStops: seq<string> := ["experience", "education", "projects"]
  const ExperienceHeaders: seq<string> := ["experience", "employment", "work"]
  const ExperienceStops: seq<string> := ["education", "projects", "skills"]
  const EducationHeaders: seq<string> := ["education"]
  const EducationStops: seq<string> := ["experience", "projects", "skills"]
  const ProjectsHeaders: seq<string> := ["projects"]
  const ProjectsStops: seq<string> := ["experience", "education", "skills"]

  datatype Sections = Sections(
    contact: string,
    summary: string,
    skills: string,
    experience: string,
    education: string,
    projects: string)

  /** Every field starts as '' and `contact` is never filled in; each other
      field is its own search over the whole text. */
  function ExtractSections(text: string): (s: Sections)
    ensures s.contact == ""
    ensures IsTrimmed(s.summary) && IsTrimmed(s.skills) && IsTrimmed(s.experience)
    ensures IsTrimmed(s.education) && IsTrimmed(s.projects)
    ensures HeaderPosition(text, SkillsHeaders).None? ==> s.skills == ""
    ensures HeaderPosition(text, SummaryHeaders).None? ==> s.summary == ""
    ensures HeaderPosition(text, ExperienceHeaders).None? ==> s.experience == ""
    ensures HeaderPosition(text, EducationHeaders).None? ==> s.education == ""
    ensures HeaderPosition(text, ProjectsHeaders).None? ==> s.projects == ""
    ensures s.summary == Section(text, SummaryHeaders, SummaryStops)
    ensures s.skills == Section(text, SkillsHeaders, SkillsStops)
    ensures s.experience == Section(text, ExperienceHeaders, ExperienceStops)
    ensures s.education == Section(text, EducationHeaders, EducationStops)
    ensures s.projects == Section(text, ProjectsHeaders, ProjectsStops)
  {
    Sections("",
      Section(text, SummaryHeaders, SummaryStops),
      Section(text, SkillsHeaders, SkillsStops),
      Section(text, ExperienceHeaders, ExperienceStops),
      Section(text, EducationHeaders, EducationStops),
      Section(text, ProjectsHeaders, ProjectsStops))
  }

  /** Every extracted section is a trimmed piece of the input. */
  lemma SectionsAreSubstrings(text: string)
    ensures exists k: nat :: OccursAt(text, k, ExtractSections(text).summary)
    ensures exists k: nat :: OccursAt(text, k, ExtractSections(text).skills)
    ensures exists k: nat :: OccursAt(text, k, ExtractSections(text).experience)
    ensures exists k: nat :: OccursAt(text, k, ExtractSections(text).education)
    ensures exists k: nat :: OccursAt(text, k, ExtractSections(text).projects)
  {
    var s := ExtractSections(text);
    var k1 := SectionIsSubstring(text, SummaryHeaders, SummaryStops);
    var k2 := SectionIsSubstring(text, SkillsHeaders, SkillsStops);
    var k3 := SectionIsSubstring(text, ExperienceHeaders, ExperienceStops);
    var k4 := SectionIsSubstring(text, EducationHeaders, EducationStops);
    var k5 := SectionIsSubstring(text, ProjectsHeaders, ProjectsStops);
    assert OccursAt(text, k1, s.summary);
    assert OccursAt(text, k2, s.skills);
    assert OccursAt(text, k3, s.experience);
    assert OccursAt(text, k4, s.education);
    assert OccursAt(text, k5, s.projects);
  }

  /** The skills body starts right after the leftmost "skills" (any case)
      that has a character after it, always takes that character, and
      runs to the first later start of "experience", "education" or
      "projects", or to the end of the text. */
  lemma SkillsBodyRules(text: string)
    requires SectionSpan(text, SkillsHeaders, SkillsStops).Some?
    ensures var sp := SectionSpan(text, SkillsHeaders, SkillsStops).value;
      var p := sp.start - 6;
      sp.start >= 6 && Opens(text, p, "skills") &&
      (forall q :: 0 <= q < p ==> !Opens(text, q, "skills")) &&
      sp.end >= sp.start + 1 &&
      (forall k :: sp.start < k < sp.end ==> !AnyMatchesAt(text, k, SkillsStops)) &&
      (sp.end == |text| || AnyMatchesAt(text, sp.end, SkillsStops)) &&
      ExtractSections(text).skills == Trim(text[sp.start..sp.end])
  {
    var p := HeaderPosition(text, SkillsHeaders).value;
    assert HeaderAt(text, p, SkillsHeaders) == Some(0);
    forall q | 0 <= q < p ensures !Opens(text, q, "skills") {
      assert HeaderAt(text, q, SkillsHeaders).None?;
      assert SkillsHeaders[0] == "skills";
    }
  }

  /** Alternatives are tried in the order listed only at one position: an
      earlier position wins whatever alternative opens there. */
  lemma LeftmostHeaderWins(text: string, headers: seq<string>, p: nat, h: string)
    requires h in headers && p < |text| && Opens(text, p, h)
    ensures HeaderPosition(text, headers).Some? && HeaderPosition(text, headers).value <= p
  {
    var i :| 0 <= i < |headers| && headers[i] == h;
    assert HeaderAt(text, p, headers).Some?;
  }

  /** A header with nothing after it opens nothing: `(.+?)` needs one
      character. */
  lemma HeaderAtEndOpensNothing(text: string, h: string)
    requires |h| <= |text|
    ensures !Opens(text, |text| - |h|, h)
  {
  }

  /** Matching ignores ASCII case, and "work" is found inside longer words. */
  lemma WorkInsideWord()
    ensures Opens("FrameWork x", 5, "work")
    ensures HeaderAt("FrameWork x", 5, ExperienceHeaders) == Some(2)
  {
    var t := "FrameWork x";
    assert Lower(t[5]) == 'w' && Lower(t[6]) == 'o' && Lower(t[7]) == 'r' && Lower(t[8]) == 'k';
    assert Opens(t, 5, ExperienceHeaders[2]);
    assert !Opens(t, 5, ExperienceHeaders[0]);
    assert !Opens(t, 5, ExperienceHeaders[1]);
  }
}

=== FILE: resume_uploader.dfy ===
/** The resume confirmation form: the edits a user makes to the experience
    list, the comma-separated skills box, and the naive parser that fills
    the form from pasted resume text. */
module ResumeUploader {
  import opened Common
  import opened Text
  import opened Records

  /** The experience fields the form's text inputs edit. */
  datatype ExperienceField = Role | Company | Location | StartDate | EndDate

  function FieldValue(e: Experience, f: ExperienceField): string {
    match f
    case Role => e.role
    case Company => e.company
    case Location => e.location
    case StartDate => e.startDate
    case EndDate => e.endDate
  }

  /** `{ ...exp, [field]: value }` */
  function SetField(e: Experience, f: ExperienceField, v: string): (r: Experience)
    ensures FieldValue(r, f) == v
    ensures forall g :: g != f ==> FieldValue(r, g) == FieldValue(e, g)
    ensures r.id == e.id && r.bullets == e.bullets
  {
    match f
    case Role => e.(role := v)
    case Company => e.(company := v)
    case Location => e.(location := v)
    case StartDate => e.(startDate := v)
    case EndDate => e.(endDate := v)
  }

  /** The entry added by "+ Add Experience"; the id (a timestamp in the
      original) is supplied by the caller. */
  function BlankExperience(id: string): Experience {
    Experience(id, "", "", "", "", "", [""])
  }

  function AddExperience(r: Resume, newId: string): (r': Resume)
    ensures |r'.experience| == |r.experience| + 1
    ensures r'.experience[..|r.experience|] == r.experience
    ensures var e := r'.experience[|r.experience|];
      e.id == newId && e.bullets == [""] &&
      forall f :: FieldValue(e, f) == ""
    ensures r' == r.(experience := r'.experience)
  {
    r.(experience := r.experience + [BlankExperience(newId)])
  }

  /** Every entry whose id is `id` gets field f set to v; all others are
      kept.  Ids are not assumed unique. */
  function ChangeExperience(r: Resume, id: string, f: ExperienceField, v: string): (r': Resume)
    ensures |r'.experience| == |r.experience|
    ensures forall i :: 0 <= i < |r.experience| && r.experience[i].id == id ==>
      FieldValue(r'.experience[i], f) == v &&
      r'.experience[i].id == id &&
      r'.experience[i].bullets == r.experience[i].bullets &&
      forall g :: g != f ==> FieldValue(r'.experience[i], g) == FieldValue(r.experience[i], g)
    ensures forall i :: 0 <= i < |r.experience| && r.experience[i].id != id ==>
      r'.experience[i] == r.experience[i]
    ensures r' == r.(experience := r'.experience)
  {
    var xs := r.experience;
    r.(experience := seq(|xs|, i requires 0 <= i < |xs| =>
      if xs[i].id == id then SetField(xs[i], f, v) else xs[i]))
  }

  /** The form only edits bullets it displays, so the index is in range for
      every entry carrying the id. */
  predicate BulletInRange(xs: seq<Experience>, id: string, index: nat) {
    forall i :: 0 <= i < |xs| && xs[i].id == id ==> index < |xs[i].bullets|
  }

  function ChangeBullet(r: Resume, id: string, index: nat, v: string): (r': Resume)
    requires BulletInRange(r.experience, id, index)
    ensures |r'.experience| == |r.experience|
    ensures forall i :: 0 <= i < |r.experience| && r.experience[i].id == id ==>
      var b, b' := r.experience[i].bullets, r'.experience[i].bullets;
      |b'| == |b| && b'[index] == v &&
      (forall k :: 0 <= k < |b| && k != index ==> b'[k] == b[k]) &&
      r'.experience[i].(bullets := b) == r.experience[i]
    ensures forall i :: 0 <= i < |r.experience| && r.experience[i].id != id ==>
      r'.experience[i] == r.experience[i]
    ensures r' == r.(experience := r'.experience)
  {
    var xs := r.experience;
    r.(experience := seq(|xs|, i requires 0 <= i < |xs| =>
      if xs[i].id == id then xs[i].(bullets := xs[i].bullets[index := v]) else xs[i]))
  }

  function AddBullet(r: Resume, id: string): (r': Resume)
    ensures |r'.experience| == |r.experience|
    ensures forall i :: 0 <= i < |r.experience| && r.experience[i].id == id ==>
      var b, b' := r.experience[i].bullets, r'.experience[i].bullets;
      |b'| == |b| + 1 && b'[..|b|] == b && b'[|b|] == "" &&
      r'.experience[i].(bullets := b) == r.experience[i]
    ensures forall i :: 0 <= i < |r.experience| && r.experience[i].id != id ==>
      r'.experience[i] == r.experience[i]
    ensures r' == r.(experience := r'.experience)
  {
    var xs := r.experience;
    r.(experience := seq(|xs|, i requires 0 <= i < |xs| =>
      if xs[i].id == id then xs[i].(bullets := xs[i].bullets + [""]) else xs[i]))
  }

  // ----- the skills text box -----

  /** What the box shows: `skills.join(', ')`. */
  function SkillsText(skills: seq<string>): string {
    Join(", ", skills)
  }

  /** What typing into the box stores: `value.split(',').map(s => s.trim())`. */
  function ParseSkillsText(t: string): (skills: seq<string>)
    ensures |skills| >= 1
    ensures forall i :: 0 <= i < |skills| ==> IsTrimmed(skills[i]) && Avoids(skills[i], {','})
  {
    MapTrimAvoids(SplitOn({','}, t), {','});
    MapTrim(SplitOn({','}, t))
  }

  /** A skill the box can carry unchanged. */
  predicate IsBoxSkill(s: string) {
    IsTrimmed(s) && Avoids(s, {','})
  }

  /** Showing a non-empty list of trimmed, comma-free skills in the box and
      reading it back gives the same list. */
  lemma {:induction false} SkillsRoundTrip(skills: seq<string>)
    requires |skills| >= 1
    requires forall i :: 0 <= i < |skills| ==> IsBoxSkill(skills[i])
    ensures ParseSkillsText(SkillsText(skills)) == skills
  {
    SplitPaddedJoin({','}, ',', ' ', skills);
    MapTrimPadded(' ', skills);
  }

  /** An empty skills list shows as "" and reads back as one blank skill. */
  lemma EmptySkillsReadBackBlank()
    ensures ParseSkillsText(SkillsText([])) == [""]
  {
    assert SplitOn({','}, "") == [""];
  }

  lemma ParsedSkillsFitBox(t: string)
    ensures forall i :: 0 <= i < |ParseSkillsText(t)| ==> IsBoxSkill(ParseSkillsText(t)[i])
  {
  }

  /** Whatever was typed, one more show-and-read cycle changes nothing. */
  lemma {:induction false} SkillsBoxStable(t: string)
    ensures ParseSkillsText(SkillsText(ParseSkillsText(t))) == ParseSkillsText(t)
  {
    ParsedSkillsFitBox(t);
    SkillsRoundTrip(ParseSkillsText(t));
  }

  // ----- the naive parser of pasted text -----

  const LinkedInPrefix: string := "linkedin.com/in/"

  /** The class [a-zA-Z0-9_-]. */
  predicate IsSlugChar(c: char) {
    ('a' <= c <= 'z') || ('A' <= c <= 'Z') || ('0' <= c <= '9') || c == '_' || c == '-'
  }

  /** /linkedin\.com\/in\/[a-zA-Z0-9_-]+/ can start matching at p. */
  predicate LinkedInAt(text: string, p: nat) {
    OccursAt(text, p, LinkedInPrefix) && p + |LinkedInPrefix| < |text| &&
    IsSlugChar(text[p + |LinkedInPrefix|])
  }

  /** End of the run of slug characters starting at `from`: how far the
      greedy [a-zA-Z0-9_-]+ reaches. */
  function SlugEnd(text: string, from: nat): (e: nat)
    requires from <= |text|
    ensures from <= e <= |text|
    ensures forall j :: from <= j < e ==> IsSlugChar(text[j])
    ensures e < |text| ==> !IsSlugChar(text[e])
  {
    var notSlug := (j: nat) => j < |text| && !IsSlugChar(text[j]);
    assert forall j :: from <= j < |text| ==> (notSlug(j) <==> !IsSlugChar(text[j]));
    FindFirst(from, |text|, notSlug).GetOr(|text|)
  }

  /** The leftmost position where a profile URL can match. */
  function LinkedInPos(text: string): (p: Option<nat>)
    ensures p.Some? <==> exists q :: LinkedInAt(text, q)
    ensures p.Some? ==> LinkedInAt(text, p.value)
    ensures p.Some? ==> forall q :: 0 <= q < p.value ==> !LinkedInAt(text, q)
  {
    var at := (q: nat) => LinkedInAt(text, q);
    assert forall q :: 0 <= q < |text| ==> (at(q) <==> LinkedInAt(text, q));
    FindFirst(0, |text|, at)
  }

  /** The leftmost profile URL, with the greedy slug run after it. */
  function LinkedInMatch(text: string): (r: Option<string>)
    ensures r.Some? <==> exists p :: LinkedInAt(text, p)
    ensures r.Some? ==>
      |r.value| > |LinkedInPrefix| && OccursAt(r.value, 0, LinkedInPrefix) &&
      forall k :: |LinkedInPrefix| <= k < |r.value| ==> IsSlugChar(r.value[k])
  {
    match LinkedInPos(text)
    case None => None
    case Some(p) =>
      var e := SlugEnd(text, p + |LinkedInPrefix|);
      PrefixOfSlice(text, p, e, LinkedInPrefix);
      Some(text[p..e])
  }

  /** The URL is taken from the text at the leftmost place one starts, and
      the slug is cut only where a character outside the class follows. */
  lemma LinkedInMatchInText(text: string)
    requires LinkedInMatch(text).Some?
    ensures var p := LinkedInPos(text).value;
      var l := LinkedInMatch(text).value;
      OccursAt(text, p, l) && (p + |l| == |text| || !IsSlugChar(text[p + |l|]))
  {
    var p := LinkedInPos(text).value;
    var e := SlugEnd(text, p + |LinkedInPrefix|);
    assert LinkedInMatch(text).value == text[p..e];
  }

  lemma PrefixOfSlice(text: string, p: nat, e: nat, w: string)
    requires p + |w| <= e <= |text| && OccursAt(text, p, w)
    ensures OccursAt(text[p..e], 0, w)
  {
    assert text[p..e][..|w|] == text[p..p + |w|];
  }

  /** The character class [,\nâ€¢] as the source file spells it: the
      bullet sign • was saved mis-encoded, so the class holds its three
      mojibake characters rather than • itself. */
  const SkillSeparators: set<char> := {',', '\n', '\U{00E2}', '\U{20AC}', '\U{00A2}'}

  const SkillsHeader: string := "skills"

  const SkillsStops: seq<string> := ["experience", "education", "projects"]

  /** Where the lazy group of /skills[\s\n]*:?([\s\S]*?)(?=...)/ starts for
      a header ending at q: after the whitespace run and an optional colon. */
  function SkillsBodyStart(text: string, q: nat): (s: nat)
    requires q <= |text|
    ensures q <= s <= |text|
  {
    var e := SpaceRunEnd(text, q);
    if e < |text| && text[e] == ':' then e + 1 else e
  }

  /** The leftmost "skills" in any ASCII case. */
  function SkillsHeaderPos(text: string): (p: Option<nat>)
    ensures p.Some? <==> exists q :: MatchesAt(text, q, SkillsHeader)
    ensures p.Some? ==> MatchesAt(text, p.value, SkillsHeader)
    ensures p.Some? ==> forall q :: 0 <= q < p.value ==> !MatchesAt(text, q, SkillsHeader)
  {
    var hdr := (q: nat) => MatchesAt(text, q, SkillsHeader);
    assert forall q :: 0 <= q < |text| ==> (hdr(q) <==> MatchesAt(text, q, SkillsHeader));
    FindFirst(0, |text|, hdr)
  }

  /** The captured group of that regex: from the leftmost "skills" to the
      first section word or the end of the text.  The match cannot fail
      once the header is found, since the group may grow to the end, where
      $ holds. */
  function SkillsBlock(text: string): (r: Option<string>)
    ensures r.Some? <==> exists p :: MatchesAt(text, p, SkillsHeader)
  {
    match SkillsHeaderPos(text)
    case None => None
    case Some(p) =>
      var s := SkillsBodyStart(text, p + |SkillsHeader|);
      Some(text[s..NextStop(text, SkillsStops, s)])
  }

  /** The block is the piece of the text that starts after the leftmost
      header, its whitespace and an optional colon, and stops at the first
      section word at or after that point, or at the end of the text. */
  lemma SkillsBlockShape(text: string)
    requires SkillsBlock(text).Some?
    ensures var b := SkillsBlock(text).value;
      var s := SkillsBodyStart(text, SkillsHeaderPos(text).value + |SkillsHeader|);
      OccursAt(text, s, b) &&
      (forall k :: s <= k < s + |b| ==> !AnyMatchesAt(text, k, SkillsStops)) &&
      (s + |b| == |text| || AnyMatchesAt(text, s + |b|, SkillsStops))
  {
    var p := SkillsHeaderPos(text).value;
    var s := SkillsBodyStart(text, p + |SkillsHeader|);
    var e := NextStop(text, SkillsStops, s);
    var b := SkillsBlock(text).value;
    assert b == text[s..e];
    assert s + |b| == e;
    assert OccursAt(text, s, b);
    assert forall k :: s <= k < e ==> !AnyMatchesAt(text, k, SkillsStops);
  }

  /** `skillsText.split(/[,\nâ€¢]/).map(s => s.trim()).filter(Boolean)` */
  function SkillsFromBlock(block: string): (skills: seq<string>)
    ensures forall i :: 0 <= i < |skills| ==>
      skills[i] != "" && IsTrimmed(skills[i]) && Avoids(skills[i], SkillSeparators)
  {
    var trimmed := MapTrim(SplitOn(SkillSeparators, Trim(block)));
    MapTrimAvoids(SplitOn(SkillSeparators, Trim(block)), SkillSeparators);
    assert forall x :: x in trimmed ==> IsTrimmed(x) && Avoids(x, SkillSeparators);
    NonEmpty(trimmed)
  }

  /** Splitting a ", "-join on the separator class leaves a space in
      front of every skill but the first. */
  lemma SplitSkillsJoin(skills: seq<string>)
    requires |skills| >= 1
    requires forall i :: 0 <= i < |skills| ==> Avoids(skills[i], SkillSeparators)
    ensures SplitOn(SkillSeparators, Join(", ", skills)) == [skills[0]] + PrependAll(' ', skills[1..])
  {
    assert ',' in SkillSeparators;
    assert ' ' !in SkillSeparators;
    assert ", " == [',', ' '];
    SplitPaddedJoin(SkillSeparators, ',', ' ', skills);
  }

  /** A block that lists skills separated by ", " gives back exactly those
      skills, in order, whatever they are (as long as each is non-empty,
      trimmed and free of the separator characters). */
  lemma SkillsFromBlockJoin(skills: seq<string>)
    requires |skills| >= 1
    requires forall i :: 0 <= i < |skills| ==>
      skills[i] != "" && IsTrimmed(skills[i]) && Avoids(skills[i], SkillSeparators)
    ensures SkillsFromBlock(Join(", ", skills)) == skills
  {
    var b := Join(", ", skills);
    JoinTrimmed(", ", skills);
    SplitSkillsJoin(skills);
    MapTrimPadded(' ', skills);
    assert MapTrim(SplitOn(SkillSeparators, Trim(b))) == skills;
  }

  /** `if (skillsSection && skillsSection[1]) …`: the skills of the pasted
      text, none when there is no header or the block is empty. */
  function ParsedSkills(text: string): (skills: seq<string>)
    ensures SkillsBlock(text).None? ==> skills == []
    ensures forall i :: 0 <= i < |skills| ==>
      skills[i] != "" && IsTrimmed(skills[i]) && Avoids(skills[i], SkillSeparators)
  {
    match SkillsBlock(text)
    case Some(b) => if b != "" then SkillsFromBlock(b) else []
    case None => []
  }

  /** What basicResumeParser returns, already split into the two records the
      form edits (every field is set, so the `|| ''` defaults of the form
      never apply). */
  datatype Parsed = Parsed(profile: Profile, resume: Resume)

  const PlaceholderExperience: Experience := Experience(
    "1", "Position Title", "Company Name", "Location", "Start Date", "End Date",
    ["Responsibility/achievement 1", "Responsibility/achievement 2"])

  /** The e-mail and phone regexes are passed in: `email(text)` and
      `phone(text)` are their first matches. */
  function BasicResumeParser(text: string, email: string -> Option<string>, phone: string -> Option<string>): (p: Parsed)
    ensures p.profile.name == "" && p.profile.location == "" && p.resume.summary == ""
    ensures p.profile.email == email(text).GetOr("") && p.profile.phone == phone(text).GetOr("")
    ensures p.profile.links == match LinkedInMatch(text) case Some(l) => [l] case None => []
    ensures |p.profile.links| <= 1
    ensures forall l :: l in p.profile.links ==>
      |l| > |LinkedInPrefix| && l[..|LinkedInPrefix|] == LinkedInPrefix
    ensures |p.profile.links| == 1 <==> exists q :: LinkedInAt(text, q)
    ensures p.resume.skills == ParsedSkills(text)
    ensures p.resume.experience == [PlaceholderExperience]
    ensures p.resume.projects == [] && p.resume.education == []
  {
    var links := match LinkedInMatch(text) case Some(l) => [l] case None => [];
    Parsed(
      Profile("", email(text).GetOr(""), phone(text).GetOr(""), "", links),
      Resume("", ParsedSkills(text), [PlaceholderExperience], [], []))
  }

  /** Pasted text whose skills block lists skills separated by ", " fills
      the form with exactly those skills, in order. */
  lemma ParsedSkillsFromList(text: string, skills: seq<string>)
    requires |skills| >= 1
    requires forall i :: 0 <= i < |skills| ==>
      skills[i] != "" && IsTrimmed(skills[i]) && Avoids(skills[i], SkillSeparators)
    requires SkillsBlock(text) == Some(Join(", ", skills))
    ensures ParsedSkills(text) == skills
  {
    SkillsFromBlockJoin(skills);
  }
}

=== FILE: settings_panel.dfy ===
/** The settings view: its defaults, loading and saving, and the two edits
    (a top-level setting, and the key typed for one provider). */
module SettingsPanel {
  import opened Common
  import opened Records
  import Background

  /** The view's state before anything is loaded. */
  const PanelDefaults: Settings := Settings("local", "openRouter", map[])

  /** The view starts from the very settings the install writes, so a
      fresh panel shows what the background will use. */
  lemma DefaultsMatchInstall()
    ensures PanelDefaults == Background.InstallStore().settings.value
    ensures !Background.CallsProvider(PanelDefaults)
  {
  }

  /** The stored settings replace the view's only when there are some. */
  function Load(current: Settings, stored: Option<Settings>): (s: Settings)
    ensures stored.Some? ==> s == stored.value
    ensures stored.None? ==> s == current
  {
    stored.GetOr(current)
  }

  /** Saving writes the settings and leaves the rest of storage alone. */
  function Save(store: Background.Store, s: Settings): (r: Background.Store)
    ensures r.settings == Some(s)
    ensures r.(settings := store.settings) == store
  {
    store.(settings := Some(s))
  }

  /** The two top-level settings the view edits: the privacy radio buttons
      and the provider selector. */
  datatype SettingKey = PrivacyMode | SelectedModelProvider

  /** `{...prev, [key]: value}` */
  function UpdateSetting(s: Settings, key: SettingKey, value: string): (r: Settings)
    ensures key == PrivacyMode ==> r.privacyMode == value && r.selectedModelProvider == s.selectedModelProvider
    ensures key == SelectedModelProvider ==> r.selectedModelProvider == value && r.privacyMode == s.privacyMode
    ensures r.apiKeys == s.apiKeys
  {
    match key
    case PrivacyMode => s.(privacyMode := value)
    case SelectedModelProvider => s.(selectedModelProvider := value)
  }

  /** `{...prev, apiKeys: {...prev.apiKeys, [provider]: value}}` */
  function UpdateApiKey(s: Settings, provider: string, value: string): (r: Settings)
    ensures provider in r.apiKeys && r.apiKeys[provider] == value
    ensures r.apiKeys.Keys == s.apiKeys.Keys + {provider}
    ensures forall p :: p in s.apiKeys && p != provider ==> r.apiKeys[p] == s.apiKeys[p]
    ensures r.privacyMode == s.privacyMode && r.selectedModelProvider == s.selectedModelProvider
  {
    s.(apiKeys := s.apiKeys[provider := value])
  }

  /** The key box shows `apiKeys[selected] || ''`. */
  function KeyShown(s: Settings): (k: string)
    ensures s.selectedModelProvider in s.apiKeys ==> k == s.apiKeys[s.selectedModelProvider]
    ensures s.selectedModelProvider !in s.apiKeys ==> k == ""
  {
    if s.selectedModelProvider in s.apiKeys then s.apiKeys[s.selectedModelProvider] else ""
  }

  /** A provider is called exactly when the view is in local mode and shows
      a non-empty key. */
  lemma KeyShownDecidesRouting(s: Settings)
    ensures Background.CallsProvider(s) <==> s.privacyMode == "local" && KeyShown(s) != ""
  {
  }

  /** Typing a key for the selected provider shows it at once and, in local
      mode, routes requests to that provider exactly when it is non-empty. */
  lemma TypedKeyIsUsed(s: Settings, value: string)
    ensures KeyShown(UpdateApiKey(s, s.selectedModelProvider, value)) == value
    ensures Background.CallsProvider(UpdateApiKey(s, s.selectedModelProvider, value)) <==>
      s.privacyMode == "local" && value != ""
  {
  }

  /** Switching provider keeps every stored key: switching back shows the
      old key again and restores the settings exactly. */
  lemma SwitchProviderKeepsKeys(s: Settings, other: string)
    ensures UpdateSetting(s, SelectedModelProvider, other).apiKeys == s.apiKeys
    ensures UpdateSetting(UpdateSetting(s, SelectedModelProvider, other), SelectedModelProvider, s.selectedModelProvider) == s
    ensures KeyShown(UpdateSetting(UpdateSetting(s, SelectedModelProvider, other), SelectedModelProvider, s.selectedModelProvider)) == KeyShown(s)
  {
  }

  /** Keys for different providers do not interfere: the order in which
      they are typed does not matter. */
  lemma ApiKeysCommute(s: Settings, p: string, v: string, q: string, w: string)
    requires p != q
    ensures UpdateApiKey(UpdateApiKey(s, p, v), q, w) == UpdateApiKey(UpdateApiKey(s, q, w), p, v)
  {
    var a := UpdateApiKey(UpdateApiKey(s, p, v), q, w);
    var b := UpdateApiKey(UpdateApiKey(s, q, w), p, v);
    assert a.apiKeys == b.apiKeys;
  }
}

=== FILE: text.dfy ===
/** String operations of the JavaScript runtime that the extension leans on:
    whitespace, String.prototype.trim, split on a character class, join,
    and ASCII case-insensitive matching as a non-unicode /i regex does it. */
module Text {
  import opened Common

  /** ECMAScript WhiteSpace and LineTerminator code points: the set that
      both String.prototype.trim and the regex class \s use (U+0009 to
      U+000D, space, no-break space, the Unicode space separators, the line
      and paragraph separators, and the byte order mark). */
  predicate IsSpace(c: char) {
    c == ' ' || ('\t' <= c <= '\r') || c == '\U{00A0}' || c == '\U{1680}' ||
    ('\U{2000}' <= c <= '\U{200A}') || c == '\U{2028}' || c == '\U{2029}' ||
    c == '\U{202F}' || c == '\U{205F}' || c == '\U{3000}' || c == '\U{FEFF}'
  }

  /** No character of t belongs to cs. */
  predicate Avoids(t: string, cs: set<char>) {
    forall k :: 0 <= k < |t| ==> t[k] !in cs
  }

  /** t neither starts nor ends with whitespace. */
  predicate IsTrimmed(t: string) {
    t == [] || (!IsSpace(t[0]) && !IsSpace(t[|t| - 1]))
  }

  predicate AllSpace(s: string) {
    forall i :: 0 <= i < |s| ==> IsSpace(s[i])
  }

  /** t occurs in s starting at index i. */
  predicate OccursAt(s: string, i: nat, t: string) {
    i + |t| <= |s| && s[i..i + |t|] == t
  }

  /** Number of leading whitespace characters of s: the index of its
      first other character, or |s|. */
  function TrimOffset(s: string): (i: nat)
    ensures i <= |s|
    ensures forall k :: 0 <= k < i ==> IsSpace(s[k])
    ensures i < |s| ==> !IsSpace(s[i])
  {
    SpaceRunEnd(s, 0)
  }

  /** One past the last non-whitespace character of s, or TrimOffset(s)
      when there is none. */
  function TrimStop(s: string): (j: nat)
    ensures TrimOffset(s) <= j <= |s|
    ensures forall k :: j <= k < |s| ==> IsSpace(s[k])
    ensures j > TrimOffset(s) ==> !IsSpace(s[j - 1])
  {
    var i := TrimOffset(s);
    var solid := (k: nat) => k < |s| && !IsSpace(s[k]);
    assert forall k :: i <= k < |s| ==> (solid(k) <==> !IsSpace(s[k]));
    match FindLast(i, |s|, solid)
    case None => i
    case Some(k) => k + 1
  }

  /** String.prototype.trim: the text between the leading and the trailing
      whitespace. */
  function Trim(s: string): (r: string)
    ensures IsTrimmed(r)
    ensures IsTrimmed(s) ==> r == s
  {
    s[TrimOffset(s)..TrimStop(s)]
  }

  /** The trimmed text sits in s at TrimOffset(s), with only whitespace
      around it. */
  lemma TrimShape(s: string)
    ensures TrimOffset(s) + |Trim(s)| <= |s|
    ensures forall k :: 0 <= k < |Trim(s)| ==> Trim(s)[k] == s[TrimOffset(s) + k]
    ensures forall k :: 0 <= k < TrimOffset(s) ==> IsSpace(s[k])
    ensures forall k :: TrimOffset(s) + |Trim(s)| <= k < |s| ==> IsSpace(s[k])
  {
    assert TrimOffset(s) + |Trim(s)| == TrimStop(s);
  }

  /** The trimmed text sits inside the original at TrimOffset. */
  lemma TrimOccurs(s: string)
    ensures OccursAt(s, TrimOffset(s), Trim(s))
  {
    assert TrimOffset(s) + |Trim(s)| == TrimStop(s);
  }

  /** Whitespace, then a trimmed text, then whitespace: trim gives back
      exactly the middle part. */
  lemma TrimPadded(a: string, m: string, b: string)
    requires AllSpace(a) && IsTrimmed(m) && AllSpace(b)
    ensures Trim(a + m + b) == m
  {
    var s := a + m + b;
    var i := TrimOffset(s);
    var j := TrimStop(s);
    if m == [] {
      assert forall k :: 0 <= k < |s| ==> IsSpace(s[k]) by {
        assert s == a + b;
      }
      assert i == |s|;
    } else {
      assert s[|a|] == m[0];
      assert s[|a| + |m| - 1] == m[|m| - 1];
      assert i == |a|;
      assert j == |a| + |m|;
      assert s[i..j] == m;
    }
  }

  /** An occurrence inside an occurrence is an occurrence. */
  lemma OccursWithin(s: string, i: nat, t: string, j: nat, u: string)
    requires OccursAt(s, i, t) && OccursAt(t, j, u)
    ensures OccursAt(s, i + j, u)
  {
    assert forall k :: 0 <= k < |u| ==> s[i + j + k] == t[j + k] == u[k];
    assert s[i + j..i + j + |u|] == u;
  }

  /** A text occurs at the end of anything it is appended to. */
  lemma OccursAtEnd(x: string, w: string)
    ensures OccursAt(x + w, |x|, w)
  {
    assert (x + w)[|x|..|x| + |w|] == w;
  }

  /** Appending keeps every occurrence. */
  lemma OccursExtend(x: string, i: nat, w: string, t: string)
    requires OccursAt(x, i, w)
    ensures OccursAt(x + t, i, w)
  {
    assert (x + t)[i..i + |w|] == x[i..i + |w|];
  }

  /** Trim leaves nothing exactly when the text is all whitespace. */
  lemma TrimEmpty(s: string)
    ensures Trim(s) == [] <==> AllSpace(s)
  {
    if Trim(s) == [] {
      assert TrimStop(s) == TrimOffset(s);
    }
  }

  lemma TrimSubstring(s: string)
    ensures forall c :: c in Trim(s) ==> c in s
  {
    TrimShape(s);
    var r := Trim(s);
    var i := TrimOffset(s);
    forall c | c in r ensures c in s {
      var k :| 0 <= k < |r| && r[k] == c;
      assert s[i + k] == c;
    }
  }

  lemma TrimIdempotent(s: string)
    ensures Trim(Trim(s)) == Trim(s)
  {
  }

  /** A leading whitespace character makes no difference to trim: what
      makes the space after each ", " separator disappear again. */
  lemma TrimLeadingSpace(c: char, x: string)
    requires IsSpace(c)
    ensures Trim([c] + x) == Trim(x)
  {
    var i, j := TrimOffset(x), TrimStop(x);
    SpacedPrefix(c, x, i);
    SpacedSuffix(x, j);
    ConsThreeSlices(c, x, i, j);
    TrimPadded([c] + x[..i], x[i..j], x[j..]);
  }

  lemma SpacedPrefix(c: char, x: string, i: nat)
    requires IsSpace(c) && i <= |x| && forall k :: 0 <= k < i ==> IsSpace(x[k])
    ensures AllSpace([c] + x[..i])
  {
    var a := [c] + x[..i];
    assert forall k :: 1 <= k < |a| ==> a[k] == x[k - 1];
  }

  lemma SpacedSuffix(x: string, j: nat)
    requires j <= |x| && forall k :: j <= k < |x| ==> IsSpace(x[k])
    ensures AllSpace(x[j..])
  {
    assert forall k :: 0 <= k < |x| - j ==> x[j..][k] == x[j + k];
  }

  lemma SliceAllSpace(s: string, a: nat, b: nat)
    requires a <= b <= |s| && forall j :: a <= j < b ==> IsSpace(s[j])
    ensures AllSpace(s[a..b])
  {
    assert forall j :: 0 <= j < b - a ==> s[a..b][j] == s[a + j];
  }

  lemma SliceThree(s: string, a: nat, k: nat, m: nat, b: nat)
    requires a <= k <= m <= b <= |s|
    ensures s[a..b] == s[a..k] + s[k..m] + s[m..b]
  {
    assert s[a..b] == s[a..k] + s[k..b];
    assert s[k..b] == s[k..m] + s[m..b];
  }

  lemma ConsThreeSlices(c: char, x: string, i: nat, j: nat)
    requires i <= j <= |x|
    ensures [c] + x == ([c] + x[..i]) + x[i..j] + x[j..]
  {
    assert x == x[..i] + x[i..j] + x[j..];
  }

  /** Trimming cannot bring in a character the text did not have. */
  lemma TrimAvoids(s: string, cs: set<char>)
    requires Avoids(s, cs)
    ensures Avoids(Trim(s), cs)
  {
    TrimSubstring(s);
    var r := Trim(s);
    forall k | 0 <= k < |r| ensures r[k] !in cs {
      assert r[k] in r;
    }
  }

  /** ASCII lower-casing; every other character is left alone, as the case
      folding of a regex without the u flag never maps a non-ASCII
      character onto an ASCII one. */
  function Lower(c: char): (r: char)
    ensures 'A' <= c <= 'Z' ==> r as int == c as int + 32
    ensures !('A' <= c <= 'Z') ==> r == c
  {
    if 'A' <= c <= 'Z' then (c as int + 32) as char else c
  }

  /** The lower-case ASCII literal `word` matches text at p ignoring ASCII
      case. */
  predicate MatchesAt(text: string, p: nat, word: string) {
    p + |word| <= |text| && forall k :: 0 <= k < |word| ==> Lower(text[p + k]) == word[k]
  }

  /** Some word of the list matches at p. */
  predicate AnyMatchesAt(text: string, p: nat, words: seq<string>) {
    exists w :: w in words && MatchesAt(text, p, w)
  }

  /** End of the whitespace run starting at `from`: how far a greedy \s*
      reaches. */
  function SpaceRunEnd(text: string, from: nat): (e: nat)
    requires from <= |text|
    ensures from <= e <= |text|
    ensures forall j :: from <= j < e ==> IsSpace(text[j])
    ensures e < |text| ==> !IsSpace(text[e])
  {
    var stop := (j: nat) => j < |text| && !IsSpace(text[j]);
    assert forall j :: from <= j < |text| ==> (stop(j) <==> !IsSpace(text[j]));
    FindFirst(from, |text|, stop).GetOr(|text|)
  }

  /** The lookahead (?=w1|w2|...|$) tried at from, from + 1, ...: the first
      position at which one of the words begins, or the end of the text. */
  function NextStop(text: string, stops: seq<string>, from: nat): (j: nat)
    requires from <= |text|
    ensures from <= j <= |text|
    ensures j == |text| || AnyMatchesAt(text, j, stops)
    ensures forall k :: from <= k < j ==> !AnyMatchesAt(text, k, stops)
  {
    var stop := (k: nat) => AnyMatchesAt(text, k, stops);
    assert forall k :: from <= k < |text| ==> (stop(k) <==> AnyMatchesAt(text, k, stops));
    FindFirst(from, |text|, stop).GetOr(|text|)
  }

  /** String.prototype.split with a one-character-class separator: the
      pieces between separators, always at least one (split of "" is [""]). */
  function SplitOn(seps: set<char>, s: string): (r: seq<string>)
    ensures |r| >= 1
    ensures forall i :: 0 <= i < |r| ==> Avoids(r[i], seps)
  {
    if |s| == 0 then [""]
    else
      var rest := SplitOn(seps, s[1..]);
      if s[0] in seps then [""] + rest
      else [[s[0]] + rest[0]] + rest[1..]
  }

  /** Array.prototype.join. */
  function Join(sep: string, parts: seq<string>): string
  {
    if |parts| == 0 then ""
    else if |parts| == 1 then parts[0]
    else parts[0] + sep + Join(sep, parts[1..])
  }

  /** A separator splits the text into the pieces on either side of it. */
  lemma {:induction false} SplitAround(seps: set<char>, a: string, c: char, b: string)
    requires c in seps
    ensures SplitOn(seps, a + [c] + b) == SplitOn(seps, a) + SplitOn(seps, b)
  {
    if |a| == 0 {
      assert (a + [c] + b)[1..] == b;
    } else {
      assert (a + [c] + b)[1..] == a[1..] + [c] + b;
      SplitAround(seps, a[1..], c, b);
    }
  }

  /** Text without separators is one piece. */
  lemma {:induction false} SplitWhole(seps: set<char>, a: string)
    requires Avoids(a, seps)
    ensures SplitOn(seps, a) == [a]
  {
    if |a| > 0 {
      SplitWhole(seps, a[1..]);
      assert [a[0]] + a[1..] == a;
    }
  }

  /** A leading non-separator joins the first piece. */
  lemma SplitPrepend(seps: set<char>, c: char, t: string)
    requires c !in seps
    ensures SplitOn(seps, [c] + t) == [[c] + SplitOn(seps, t)[0]] + SplitOn(seps, t)[1..]
  {
    assert ([c] + t)[1..] == t;
  }

  /** Joining on a separator undoes the split on it. */
  lemma {:induction false} JoinSplit(c: char, s: string)
    ensures Join([c], SplitOn({c}, s)) == s
  {
    if |s| > 0 {
      var rest := SplitOn({c}, s[1..]);
      JoinSplit(c, s[1..]);
      if s[0] == c {
        assert SplitOn({c}, s) == [""] + rest;
        assert ([""] + rest)[1..] == rest;
        assert s == [c] + s[1..];
      } else {
        var r := SplitOn({c}, s);
        assert r == [[s[0]] + rest[0]] + rest[1..];
        if |rest| == 1 {
          assert s == [s[0]] + rest[0];
        } else {
          assert r[1..] == rest[1..];
          assert s == [s[0]] + (rest[0] + [c] + Join([c], rest[1..]));
        }
      }
    }
  }

  /** Splitting undoes the join on a separator that no part contains. */
  lemma {:induction false} SplitJoin(c: char, parts: seq<string>)
    requires |parts| >= 1
    requires forall i :: 0 <= i < |parts| ==> Avoids(parts[i], {c})
    ensures SplitOn({c}, Join([c], parts)) == parts
  {
    if |parts| == 1 {
      SplitWhole({c}, parts[0]);
    } else {
      SplitJoin(c, parts[1..]);
      SplitAround({c}, parts[0], c, Join([c], parts[1..]));
      SplitWhole({c}, parts[0]);
      assert parts == [parts[0]] + parts[1..];
    }
  }

  /** Every element with one character put in front. */
  function PrependAll(c: char, xs: seq<string>): (r: seq<string>)
    ensures |r| == |xs|
    ensures forall i :: 0 <= i < |xs| ==> r[i] == [c] + xs[i]
  {
    if |xs| == 0 then [] else [[c] + xs[0]] + PrependAll(c, xs[1..])
  }

  /** Splitting a join on the two-character separator [c, pad] at the
      class seps (which holds c but not pad) leaves pad in front of every
      part but the first. */
  lemma {:induction false} SplitPaddedJoin(seps: set<char>, c: char, pad: char, parts: seq<string>)
    requires c in seps && pad !in seps && |parts| >= 1
    requires forall i :: 0 <= i < |parts| ==> Avoids(parts[i], seps)
    ensures SplitOn(seps, Join([c, pad], parts)) == [parts[0]] + PrependAll(pad, parts[1..])
  {
    SplitWhole(seps, parts[0]);
    if |parts| > 1 {
      var rest := parts[1..];
      var j := Join([c, pad], rest);
      SplitPaddedJoin(seps, c, pad, rest);
      assert Join([c, pad], parts) == parts[0] + [c] + ([pad] + j);
      SplitAround(seps, parts[0], c, [pad] + j);
      SplitPrepend(seps, pad, j);
      var s := SplitOn(seps, j);
      assert s[1..] == PrependAll(pad, rest[1..]);
      assert [[pad] + s[0]] + s[1..] == PrependAll(pad, rest);
    }
  }

  /** Joining two non-empty lists puts one separator between their joins. */
  lemma {:induction false} JoinAppend(sep: string, a: seq<string>, b: seq<string>)
    requires |a| > 0 && |b| > 0
    ensures Join(sep, a + b) == Join(sep, a) + sep + Join(sep, b)
  {
    if |a| == 1 {
      assert (a + b)[1..] == b;
    } else {
      assert (a + b)[1..] == a[1..] + b;
      JoinAppend(sep, a[1..], b);
    }
  }

  /** xs.map(s => s.trim()) */
  function MapTrim(xs: seq<string>): (r: seq<string>)
    ensures |r| == |xs|
    ensures forall i :: 0 <= i < |xs| ==> r[i] == Trim(xs[i])
  {
    if |xs| == 0 then [] else [Trim(xs[0])] + MapTrim(xs[1..])
  }

  /** Trimmed pieces of separator-free pieces are trimmed and separator-free. */
  lemma MapTrimAvoids(xs: seq<string>, cs: set<char>)
    requires forall i :: 0 <= i < |xs| ==> Avoids(xs[i], cs)
    ensures forall i :: 0 <= i < |xs| ==> IsTrimmed(MapTrim(xs)[i]) && Avoids(MapTrim(xs)[i], cs)
  {
    forall i | 0 <= i < |xs| ensures Avoids(MapTrim(xs)[i], cs) {
      TrimAvoids(xs[i], cs);
    }
  }

  /** Trimming the pieces of a padded split gives back the parts: the pad
      in front of each later part is whitespace that trim drops. */
  lemma MapTrimPadded(pad: char, parts: seq<string>)
    requires IsSpace(pad) && |parts| >= 1
    requires forall i :: 0 <= i < |parts| ==> IsTrimmed(parts[i])
    ensures MapTrim([parts[0]] + PrependAll(pad, parts[1..])) == parts
  {
    var rest := parts[1..];
    var pieces := [parts[0]] + PrependAll(pad, rest);
    forall i | 0 <= i < |parts| ensures MapTrim(pieces)[i] == parts[i] {
      if i > 0 {
        TrimLeadingSpace(pad, rest[i - 1]);
      }
    }
  }

  /** The last character of a join is the last character of its last part. */
  lemma {:induction false} JoinLast(sep: string, parts: seq<string>)
    requires |parts| >= 1 && parts[|parts| - 1] != ""
    ensures var j, l := Join(sep, parts), parts[|parts| - 1];
      |j| >= |l| && j[|j| - 1] == l[|l| - 1]
  {
    if |parts| > 1 {
      JoinLast(sep, parts[1..]);
    }
  }

  /** Joining non-empty trimmed parts gives trimmed text. */
  lemma JoinTrimmed(sep: string, parts: seq<string>)
    requires |parts| >= 1
    requires forall i :: 0 <= i < |parts| ==> parts[i] != "" && IsTrimmed(parts[i])
    ensures IsTrimmed(Join(sep, parts))
  {
    JoinLast(sep, parts);
    var j := Join(sep, parts);
    assert j[0] == parts[0][0];
  }

  lemma ConcatAssoc(a: seq<string>, b: seq<string>, c: seq<string>)
    ensures a + b + c == a + (b + c)
  {
  }

  /** xs.filter(Boolean) on strings: drops the empty ones, keeps the order. */
  function NonEmpty(xs: seq<string>): (r: seq<string>)
    ensures |r| <= |xs|
    ensures forall i :: 0 <= i < |r| ==> r[i] != ""
    ensures forall x :: x in r <==> x in xs && x != ""
    ensures (forall i :: 0 <= i < |xs| ==> xs[i] != "") ==> r == xs
    ensures (forall i :: 0 <= i < |xs| ==> xs[i] == "") ==> r == []
  {
    if |xs| == 0 then []
    else (if xs[0] == "" then [] else [xs[0]]) + NonEmpty(xs[1..])
  }

  /** Filtering distributes over concatenation: together with the two
      uniform cases of NonEmpty's contract, this fixes the order. */
  lemma {:induction false} NonEmptyAppend(a: seq<string>, b: seq<string>)
    ensures NonEmpty(a + b) == NonEmpty(a) + NonEmpty(b)
  {
    if |a| > 0 {
      var h := if a[0] == "" then [] else [a[0]];
      assert (a + b)[0] == a[0] && (a + b)[1..] == a[1..] + b;
      assert NonEmpty(a + b) == h + NonEmpty(a[1..] + b);
      assert NonEmpty(a) == h + NonEmpty(a[1..]);
      NonEmptyAppend(a[1..], b);
    } else {
      assert a + b == b;
    }
  }
}
